=== FILE: README.md ===
# QM2 ASM2824 GPIO/I2C driver — a Dafny model

`qm2mod.c` is a Linux kernel module for QNAP QM2 cards. Each card carries an
ASMedia ASM2824 PCIe switch. The module turns two bits of the switch's PCI
configuration space into a two-line `gpio_chip`. It then hangs an `i2c-gpio`
platform device on those lines, so the card gets a bit-banged I2C bus.

The project models the driver in six parts:

- **The GPIO callbacks** (`registers.dfy`, `gpio.dfy`). These are read-modify-write
  operations on four configuration bytes: 0x0FFF, 0x0920, 0x0928 and 0x0930.
  The register file is a record of `bv8` values.
- **The adapter-number probe** (`adapter.dfy`). It searches [32, 64] for the first
  number that has no adapter registered. The I2C core's adapter registry is an input
  map from number to reference count.
- **The device filter** (`pci.dfy`).
- **The names each instance is given** (`format.dfy`, `names.dfy`): the
  `%04x`/`%02x`/`%d` formatting of the chip label and the lookup `dev_id`, with
  parsers that read each name back.
- **The per-device build with its hand-written rollback lists** (`resources.dfy`,
  `build.dfy`, `cleanup.dfy`). Every acquisition is an abstract resource token. A
  ledger replays release calls and logs each release of a token that is not held
  and each free of the lookup table while it is still registered.
- **The scan loop of `qm2mod_init` and the drain of `qm2mod_exit`** (`scan.dfy`,
  `teardown.dfy`).

A `Variant` selects which driver the build and teardown model:

- `AsWritten` follows the code line by line.
- `Repaired` releases exactly in reverse order of acquisition and checks the probe
  result.

The repaired variant models the fix for each finding below.

The model follows the code on these points:

- **Direction polarity.** A non-zero `value` clears the line's bit in 0x0920, so a
  cleared bit is "input".
- **`direction_output` passes its level through as the direction flag.**
  `direction_output(line, 1)` therefore leaves the same registers as
  `direction_input(line)`.
- **No set/get round trip.** `set` writes 0x0928 and `get` reads 0x0930, so a
  written level is never read back through these callbacks.
- **Register results are ignored.** The return values of `pci_read_config_byte` and
  `pci_write_config_byte` are ignored, so no register access ends a build.
- **The probe reserves nothing.** Its `-ENODEV` result is never checked, and −19
  flows into the label, the platform device id and the lookup `dev_id`.
- **Teardown is not the exact reverse of the build.** The lookup table is never
  removed from the lookup list, and its `dev_id` is never freed.

## Model

| member | source | states |
|---|---|---|
| Registers.Write | qm2mod.c:44-49 | a config-byte write is read back at its register and leaves the other three registers unchanged |
| Registers.Offset | qm2mod.c:37-92 | every register offset the callbacks touch lies inside the 4 KiB extended config space |
| Gpio.ClearBit | qm2mod.c:46 | `tmp & ~mask` clears the line's bit and keeps every other bit |
| Gpio.SetBit | qm2mod.c:48 | `tmp \| mask` sets the line's bit and keeps every other bit |
| Gpio.SetDir | qm2mod.c:30-52 | writes 1 to 0x0FFF; the line's bit in 0x0920 is set iff value == 0; every other bit of 0x0920 is unchanged; 0x0928 and 0x0930 are unchanged; returns 0 |
| Gpio.DirectionInput | qm2mod.c:54-56 | writes 1 to 0x0FFF, clears the line's direction bit (input is a cleared bit), keeps every other bit of 0x0920 and leaves 0x0928 and 0x0930 unchanged; returns 0 |
| Gpio.DirectionOutput | qm2mod.c:58-60 | writes 1 to 0x0FFF; the level decides the line's direction bit and every other bit of 0x0920 is kept; 0x0928 and 0x0930 are unchanged; a non-zero level gives exactly the result of `direction_input`; returns 0 |
| Gpio.Get | qm2mod.c:62-75 | returns 0 or 1; returns 1 iff the line's bit of 0x0930 is set |
| Gpio.Set | qm2mod.c:77-93 | the line's bit of 0x0928 becomes 1 iff value != 0; other bits and the other registers are unchanged |
| Gpio.SetIdempotent | qm2mod.c:87-92 | applying `set` twice with the same value equals applying it once |
| Gpio.SetDirIdempotent | qm2mod.c:37-49 | repeating a direction change leaves the same register file |
| Gpio.LinesDisjoint | qm2mod.c:138-139 | with sda = 1 and scl = 0, offset 1 and any other offset select different bits with disjoint masks |
| Gpio.OtherLineUntouched | qm2mod.c:83-86 | an operation on one line leaves the other line's direction bit, output bit and read value unchanged |
| Gpio.GetIgnoresSet | qm2mod.c:73-92 | neither `set` nor a direction change alters what `get` returns |
| Adapter.FirstFree | qm2mod.c:99-108 | the least untaken number in [from, 64]; -ENODEV iff every number in that range is taken |
| Adapter.GetAdapter | qm2mod.c:100 | finds an adapter iff the number is registered, and then raises only its reference count |
| Adapter.PutAdapter | qm2mod.c:105 | lowers only that adapter's reference count by one |
| Adapter.GetI2cAdapter | qm2mod.c:95-109 | the `u8` loop returns the least free number in [32, 64], or -ENODEV iff all 33 are registered; the reference counts end as they started |
| Pci.Slot | qm2mod.c:141 | `PCI_SLOT` is bits 3..7 of devfn: s * 8 <= devfn < s * 8 + 8, so it lies below 32 and fits the two-digit slot field |
| Pci.Skip | qm2mod.c:119-122 | a device is skipped iff it is not slot 0 function 0, not a PCI-to-PCI bridge, or subsystem 1baa:c027 or 1baa:e009 |
| Pci.AcceptCharacterised | qm2mod.c:119-125 | a device is kept iff it is slot 0 function 0, a PCI-to-PCI bridge, and not subsystem 1baa:c027 or 1baa:e009 |
| Pci.SubsystemExamples | qm2mod.c:121-122 | the two excluded QNAP subsystems are skipped, while another QNAP subsystem device is accepted |
| Format.ParseDigitsRoundTrip | qm2mod.c:141 | the digits printed for a number in base 10 or 16 read back as that number |
| Format.HexRoundTrip | qm2mod.c:141 | `%0<w>x` output, zero padding included, reads back as the number |
| Format.HexWidth | qm2mod.c:141 | a number below 16^w prints in exactly w characters under `%0<w>x` |
| Format.DecimalRoundTrip | qm2mod.c:218 | `%d` output, negative numbers included, reads back as the number |
| Names.Label | qm2mod.c:141 | the label is at least 22 characters and starts with "gpio-asm2824_", with ':' after the four bus digits and '_' after the two slot digits |
| Names.DevId | qm2mod.c:218 | the lookup `dev_id` starts with "i2c-gpio." and carries at least one character after it |
| Names.LabelRoundTrip | qm2mod.c:141 | the label determines the bus, the slot and the adapter number it was formatted from |
| Names.SlotZeroLabel | qm2mod.c:141 | a label made for slot 0 has "00" at its slot field |
| Names.DevIdRoundTrip | qm2mod.c:218 | the lookup `dev_id` determines the adapter number it was formatted from |
| Resources.Acquire | qm2mod.c:129-244 | after acquiring, exactly the tokens held before plus the new ones are held; the fault log is unchanged |
| Resources.Drop | qm2mod.c:144-253 | a release never leaves its token held, keeps every other held token held and adds none; it logs a fault iff the token was not held |
| Resources.DropAllClean | qm2mod.c:142-255 | a fault-free run of releases gives up only held tokens, never the same one twice, and leaves exactly the rest held |
| Resources.PerformAllClean | qm2mod.c:142-255 | a fault-free run of release calls gives up only held tokens and leaves exactly the rest held |
| Build.AsWrittenRollback | qm2mod.c:142-255 | the release list written at each failure point; it is empty exactly for the data allocation, the probe and the lookup registration, and otherwise ends by freeing the instance data |
| Build.AsWrittenNeverUnregisters | qm2mod.c:142-255 | no as-written failure branch removes the lookup table from the lookup list or frees its `dev_id` |
| Build.Undo | qm2mod.c:171-253 | each token has a release call that gives up that token alone |
| Build.Fails | qm2mod.c:128-255 | a step ends the build iff it is checked and the kernel refuses it; the probe result and `gpiod_add_lookup_table` are never checked, except that the repaired driver gives up on the probe's -ENODEV |
| Build.FirstFailureFrom | qm2mod.c:128-255 | finds the first failing step at or after i; when none is found, no step from i on fails |
| Build.TryBuild | qm2mod.c:128-261 | builds iff no step fails, carrying the probed number; otherwise it stops at the first failing step, holds the tokens of the steps before it and runs that step's release list |
| Build.NewInstance | qm2mod.c:136-240 | the instance filled in on the successful path belongs to the device and the probed number it was given |
| Build.LookupTableEntries | qm2mod.c:231-240 | lookup entries 0 and 1 carry the chip's label as key, hwnum = idx = 0 and 1, no connection id and no flags; entry 2 is the zero terminator |
| Build.NewInstanceWellNamed | qm2mod.c:141-240 | a new instance agrees on its names: the label reads back as bus, slot and nr, the chip has that label and two lines, the platform device is ("i2c-gpio", nr), the `dev_id` is "i2c-gpio.%d" of nr, equal to the platform device's name, and reads back as nr, and entries 0 and 1 have hwnum = idx = 0 and 1 before a zero terminator |
| Build.BuiltWellNamed | qm2mod.c:141-260 | every instance a build produces is well named |
| Cleanup.UndoFromRun | qm2mod.c:142-255 | undoing a distinct, correctly ordered token list last-first, from position i on, leaves exactly the first i tokens held and raises no fault |
| Cleanup.HeldEarly | qm2mod.c:129-175 | the tokens held at each of the first six failure points (k = 0..5) |
| Cleanup.HeldLate | qm2mod.c:181-244 | the tokens held when each later step is reached |
| Cleanup.LookupRegisteredLate | qm2mod.c:241 | the lookup table is registered at a failure point iff `platform_device_add` is the step that failed |
| Cleanup.HeldBeforePrefix | qm2mod.c:128-244 | what the build holds at any step is an initial part of the full token list |
| Cleanup.HeldBeforeDistinct | qm2mod.c:128-244 | the build never acquires the same resource twice |
| Cleanup.RepairedRollbackClean | qm2mod.c:142-255 | at every failure point the repaired release list returns the ledger to empty, with no fault |
| Cleanup.EarlyBranchesReverse | qm2mod.c:142-175 | the first three failure branches release last-acquired first |
| Cleanup.LateBranchesReverse | qm2mod.c:182-228 | the platform-data, add-data and `dev_id` failure branches release last-acquired first |
| Cleanup.AsWrittenIsReverse | qm2mod.c:142-228 | every branch with clean releases, except the lookup-allocation branch, equals the exact-reverse release list |
| Cleanup.AsWrittenLookupSwap | qm2mod.c:206-214 | the lookup-allocation branch puts the platform device before it frees the platform data, the reverse of the exact-reverse order |
| Cleanup.CommuteReleases | qm2mod.c:209-210 | two releases of distinct held tokens commute |
| Cleanup.LookupBranchClean | qm2mod.c:206-214 | the out-of-order lookup-allocation branch still returns the ledger to empty |
| Cleanup.AsWrittenRollbackClean | qm2mod.c:142-228 | every as-written failure branch before `platform_device_add` returns the ledger to empty, with no fault |
| Cleanup.FreeRegisteredLookup | qm2mod.c:248 | freeing the lookup table while it is registered is logged, and the memory is still given up |
| Cleanup.ReleaseUnheld | qm2mod.c:250 | releasing a token that is no longer held is logged and changes nothing else |
| Cleanup.AsWrittenLastRollback | qm2mod.c:244-255 | the `platform_device_add` failure branch leaves `dev_id` allocated and the table registered; it logs the free of a registered table and a second release of the platform device |
| Cleanup.RollbackResidue | qm2mod.c:128-255 | at every failure point, what is left: empty, except for the as-written `platform_device_add` branch |
| Cleanup.SkippedResidue | qm2mod.c:128-255 | a failed build leaves nothing behind, except when the code as written fails at `platform_device_add` |
| Scan.Visit | qm2mod.c:117-261 | a device is filtered iff the filter rejects it; it is appended iff it is accepted and built, and then with the built instance; an abandoned device records the step that failed and the ledger its release list left |
| Scan.Init | qm2mod.c:111-266 | the loop yields each device's outcome in enumeration order and the list of the appended instances; it returns 0 whatever happened |
| Scan.SkipOnlyThatDevice | qm2mod.c:128-255 | a filtered or failed device contributes nothing: the list is the one the scan would make without it |
| Scan.ListedInOrder | qm2mod.c:260 | each list entry comes from the outcome at a recorded position, the positions strictly increase, and every appended outcome's position is recorded: the list holds exactly the built instances |
| Scan.ScannedAt | qm2mod.c:117-261 | each device's outcome is the visit of that device alone |
| Scan.ListIsSubsequence | qm2mod.c:260 | the instance list is a subsequence of the enumeration, and each entry carries the device it was built for |
| Scan.ListedWellNamed | qm2mod.c:119-260 | every listed instance comes from an accepted device and is well named |
| Scan.AcceptedLabelSlot | qm2mod.c:119-141 | an accepted, well-named instance has "00" in its label's slot field |
| Scan.ListedSlotZero | qm2mod.c:119-141 | every listed label has "00" in its slot field |
| Scan.UncheckedProbe | qm2mod.c:140-168 | with all 33 numbers taken, the code as written still builds, under number -19, platform id -19 and `dev_id` "i2c-gpio.-19" |
| Scan.CheckedProbe | qm2mod.c:140-145 | the repaired driver, in the same situation, stops after allocating the data and frees it |
| Scan.RepairedNumberInRange | qm2mod.c:140-168 | the repaired driver builds only under an unregistered number in [32, 64] |
| Teardown.TeardownCalls | qm2mod.c:275-287 | the per-entry release calls; both orders end by freeing the entry itself |
| Teardown.TeardownUnregistersOnlyRepaired | qm2mod.c:275-287 | both orders free the lookup table, but only the repaired one removes it from the lookup list and frees its `dev_id` |
| Teardown.RepairedTeardownReverses | qm2mod.c:272-287 | the repaired per-entry release order is the exact reverse of the build's acquisitions |
| Teardown.ReleaseEvents | qm2mod.c:275-287 | one release event per call, in the order of the calls |
| Teardown.DrainList | qm2mod.c:272-288 | the loop empties the list, and its events are those of each entry, oldest first, each unlink followed by that entry's calls |
| Teardown.Exit | qm2mod.c:268-291 | the exit routine drains the whole list with the fixed per-entry release calls |
| Teardown.EntryUnlinksItself | qm2mod.c:273-287 | one entry's events unlink exactly that entry |
| Teardown.DrainVisitsInOrder | qm2mod.c:272-288 | the entries unlinked, in order, are exactly the list |
| Teardown.UnlinkBeforeRelease | qm2mod.c:272-287 | every release call for an entry comes after that entry is unlinked |
| Teardown.BuiltHoldsAll | qm2mod.c:128-260 | a built instance holds all nine tokens |
| Teardown.UnregisterHeld | qm2mod.c:275 | `platform_device_unregister` gives up both the registration and the reference |
| Teardown.TeardownStep | qm2mod.c:275-287 | the ledger after each as-written teardown call |
| Teardown.AsWrittenTeardownResidue | qm2mod.c:268-291 | as written, an entry's teardown leaves `dev_id` allocated and the table registered, and logs the free of a registered table |
| Teardown.RepairedTeardownResidue | qm2mod.c:268-291 | with the repaired order, teardown leaves nothing and logs nothing |
| Teardown.LifetimeResidue | qm2mod.c:128-291 | a built device, once torn down, holds the as-written residue above, or nothing when repaired |

## Left out

- Kernel glue is not modelled: `module_init`/`module_exit`, `pr_debug`/`pr_fmt`,
  `THIS_MODULE` and the `MODULE_*` macros.
- The PCI configuration transport is an in-memory record of four bytes. Real
  config-space side effects (what the latch at 0x0FFF does in hardware) are
  outside the model.
- gpiolib, the platform bus, the lookup list and the I2C core are abstract tokens
  and an input map. What `platform_device_add_data` copies and what the
  `i2c-gpio` driver does on the lines are not modelled.
- Allocation failures and registration failures are an input set (`Candidate.failing`).
  `gpiod_add_lookup_table` returns `void` and cannot fail.
- `udelay = 5` is a constant in the platform data. No timing is modelled.
- The adapter registry is given per device. The probe reserves nothing, and an
  adapter registered by the bus of an earlier instance becomes visible only through
  that input.
- `pci_get_device(0x1b21, 0x2824, …)` enumeration is a given sequence of devices,
  taken to be the ASM2824 bridges it yields. Its vendor/device match and its
  reference-count handling of the previous device are not modelled.
- Concurrency is not modelled. The driver has none, and its read-modify-write
  sequences are not atomic.
- `testmod.c` is an abandoned draft of the same driver, and `junk.c` holds only a
  comment. Neither is part of this model.
- Registers.Read: always returns the stored byte. The callbacks ignore the result
  of `pci_read_config_byte`, so on a failed read `tmp` keeps its initial 0 or the
  kernel's error fill. That byte is written back by `set_dir` and `set`, or returned
  by `get`; this failure behaviour is not modelled.
- Registers.Offset: states only the range of each offset; the offsets themselves
  appear in its body.

## Findings

| source | as written | input that shows it | evidently intended | confidence | as-written member | corrected member |
|---|---|---|---|---|---|---|
| qm2mod.c:244-255 | when `platform_device_add` fails, the branch calls `platform_device_put` then `kfree` on the same platform device; it frees the lookup table while it is still on the lookup list and never frees the table's `dev_id` | any accepted device whose `platform_device_add` returns an error | `platform_device_put` alone, `gpiod_remove_lookup_table` before freeing the table, and `kfree` of `dev_id` | high, not executed | Cleanup.AsWrittenLastRollback | Cleanup.RepairedRollbackClean |
| qm2mod.c:268-291 | the exit routine frees each entry's lookup table without removing it from the lookup list and never frees its `dev_id` | any instance on the list when the module is unloaded | remove the table, then free `dev_id` and the table, so nothing is left registered or allocated | high, not executed | Teardown.AsWrittenTeardownResidue | Teardown.RepairedTeardownResidue |
| qm2mod.c:140-168 | the probe's -ENODEV is stored as the adapter number and used unchecked in the label, the platform device id and the lookup `dev_id` | all 33 numbers 32..64 already registered | give up on the device when no number is free | medium, not executed | Scan.UncheckedProbe | Scan.CheckedProbe |

=== FILE: adapter.dfy ===
/** `qm2mod_get_i2c_adapter`: the search for an I2C adapter number nobody has
    registered yet. The I2C core's adapter registry is an input: a map from
    each registered adapter number to its reference count. */
module Adapter {
  import opened Wrappers

  const ENODEV: int := 19
  const FirstNumber: int := 32
  const LastNumber: int := 64

  /** Reference definition: the least number in [from, 64] that is not taken,
      or -ENODEV when every one of them is. */
  function FirstFree(taken: set<int>, from: int): (r: int)
    requires FirstNumber <= from <= LastNumber + 1
    ensures r == -ENODEV <==> forall n :: from <= n <= LastNumber ==> n in taken
    ensures r != -ENODEV ==>
              && from <= r <= LastNumber
              && r !in taken
              && forall n :: from <= n < r ==> n in taken
    decreases LastNumber + 1 - from
  {
    if from > LastNumber then -ENODEV
    else if from !in taken then from
    else FirstFree(taken, from + 1)
  }

  /** `i2c_get_adapter`: on a hit the adapter's reference count goes up. */
  function GetAdapter(refs: map<int, nat>, n: int): (r: (bool, map<int, nat>))
    ensures r.0 <==> n in refs
    ensures r.1.Keys == refs.Keys
    ensures n in refs ==> r.1[n] == refs[n] + 1
    ensures forall m :: m in refs && m != n ==> r.1[m] == refs[m]
  {
    if n in refs then (true, refs[n := refs[n] + 1]) else (false, refs)
  }

  /** `i2c_put_adapter`: drops the reference taken by `GetAdapter`. */
  function PutAdapter(refs: map<int, nat>, n: int): (r: map<int, nat>)
    requires n in refs && refs[n] > 0
    ensures r.Keys == refs.Keys
    ensures r[n] == refs[n] - 1
    ensures forall m :: m in refs && m != n ==> r[m] == refs[m]
  {
    refs[n := refs[n] - 1]
  }

  /** The probe loop with its `u8` counter running from 32 to 64. It returns
      the least unregistered number, or -ENODEV when all 33 are registered,
      and every reference it takes it gives back, so the registry leaves the
      call exactly as it entered (the probe reserves nothing). */
  method GetI2cAdapter(refs: map<int, nat>) returns (nr: int, refs': map<int, nat>)
    ensures refs' == refs
    ensures nr == FirstFree(refs.Keys, FirstNumber)
    ensures nr == -ENODEV <==> forall n :: FirstNumber <= n <= LastNumber ==> n in refs
    ensures nr != -ENODEV ==>
              && FirstNumber <= nr <= LastNumber
              && nr !in refs
              && forall n :: FirstNumber <= n < nr ==> n in refs
  {
    refs' := refs;
    var i: U8 := 32;
    while i <= 64
      invariant FirstNumber <= i <= LastNumber + 1
      invariant refs' == refs
      invariant forall n :: FirstNumber <= n < i ==> n in refs
      invariant FirstFree(refs.Keys, i) == FirstFree(refs.Keys, FirstNumber)
      decreases LastNumber + 1 - i
    {
      var (found, held) := GetAdapter(refs', i);
      if !found {
        return i, refs';
      }
      refs' := PutAdapter(held, i);
      assert refs' == refs;
      i := i + 1;
    }
    return -ENODEV, refs';
  }
}

=== FILE: build.dfy ===
/** The per-device body of `qm2mod_init`: the ordered acquisitions that turn
    one accepted ASM2824 bridge into an instance, and the hand-written release
    list run when one of them fails. `Variant` selects between the code as
    written and a repaired driver that releases in exact reverse order and
    checks the adapter probe. */
module Build {
  import opened Wrappers
  import opened Gpio
  import opened Adapter
  import opened Pci
  import opened Format
  import opened Names
  import opened Resources

  /** The forward steps, in source order. */
  datatype Step =
    | AllocData       // kzalloc(struct qm2_data)
    | ProbeAdapter    // qm2mod_get_i2c_adapter
    | AllocLabel      // kasprintf label
    | AddChip         // gpiochip_add_data
    | AllocPlatDev    // platform_device_alloc("i2c-gpio", nr)
    | AllocPlatData   // kzalloc(struct i2c_gpio_platform_data)
    | AddPlatData     // platform_device_add_data
    | AllocLookup     // kzalloc lookup table with 3 entries
    | AllocDevId      // kasprintf dev_id
    | AddLookup       // gpiod_add_lookup_table (returns void)
    | AddPlatDev      // platform_device_add

  const Steps: seq<Step> := [AllocData, ProbeAdapter, AllocLabel, AddChip, AllocPlatDev,
    AllocPlatData, AddPlatData, AllocLookup, AllocDevId, AddLookup, AddPlatDev]

  /** The token a successful step holds from then on. */
  function Gain(s: Step): seq<Token> {
    match s
    case AllocData => [DataMem]
    case ProbeAdapter => []
    case AllocLabel => [LabelMem]
    case AddChip => [ChipReg]
    case AllocPlatDev => [PlatDevRef]
    case AllocPlatData => [PlatDataMem]
    case AddPlatData => []
    case AllocLookup => [LookupMem]
    case AllocDevId => [DevIdMem]
    case AddLookup => [LookupReg]
    case AddPlatDev => [PlatDevLive]
  }

  /** The tokens held once the first `k` steps have succeeded, in order. */
  function HeldBefore(k: nat): seq<Token>
    requires k <= |Steps|
  {
    if k == 0 then [] else HeldBefore(k - 1) + Gain(Steps[k - 1])
  }

  const AllTokens: seq<Token> := [DataMem, LabelMem, ChipReg, PlatDevRef, PlatDataMem,
    LookupMem, DevIdMem, LookupReg, PlatDevLive]

  datatype Variant = AsWritten | Repaired

  /** The release list written out at each failure point, in the order the
      code calls them. The adapter probe and `gpiod_add_lookup_table` have no
      failure branch in the code. Every branch that frees anything frees the
      instance data last. */
  function AsWrittenRollback(s: Step): (cs: seq<Call>)
    ensures cs == [] <==> s in {AllocData, ProbeAdapter, AddLookup}
    ensures cs != [] ==> cs[|cs| - 1] == Kfree(DataMem)
  {
    match s
    case AllocData => []
    case ProbeAdapter => []
    case AllocLabel => [Kfree(DataMem)]
    case AddChip => [Kfree(LabelMem), Kfree(DataMem)]
    case AllocPlatDev => [GpiochipRemove, Kfree(LabelMem), Kfree(DataMem)]
    case AllocPlatData => [PlatformDevicePut, GpiochipRemove, Kfree(LabelMem), Kfree(DataMem)]
    case AddPlatData =>
      [Kfree(PlatDataMem), PlatformDevicePut, GpiochipRemove, Kfree(LabelMem), Kfree(DataMem)]
    case AllocLookup =>
      [PlatformDevicePut, Kfree(PlatDataMem), GpiochipRemove, Kfree(LabelMem), Kfree(DataMem)]
    case AllocDevId =>
      [Kfree(LookupMem), Kfree(PlatDataMem), PlatformDevicePut, GpiochipRemove,
       Kfree(LabelMem), Kfree(DataMem)]
    case AddLookup => []
    case AddPlatDev =>
      [PlatformDevicePut, Kfree(LookupMem), Kfree(PlatDataMem), Kfree(PlatDevRef),
       GpiochipRemove, Kfree(LabelMem), Kfree(DataMem)]
  }

  /** No as-written failure branch removes the lookup table from the lookup
      list or frees its `dev_id`. */
  lemma AsWrittenNeverUnregisters(s: Step)
    ensures GpiodRemoveLookupTable !in AsWrittenRollback(s)
    ensures Kfree(DevIdMem) !in AsWrittenRollback(s)
  {
  }

  /** The call that gives up exactly one token. */
  function Undo(t: Token): (c: Call)
    ensures Releases(c) == [t]
  {
    match t
    case ChipReg => GpiochipRemove
    case PlatDevRef => PlatformDevicePut
    case LookupReg => GpiodRemoveLookupTable
    case PlatDevLive => PlatformDeviceDel
    case _ => Kfree(t)
  }

  /** Undoes the tokens from position `i` on, the last acquired first. */
  function UndoFrom(ts: seq<Token>, i: nat): (cs: seq<Call>)
    ensures i <= |ts| ==> |cs| == |ts| - i
    decreases |ts| - i
  {
    if i >= |ts| then [] else UndoFrom(ts, i + 1) + [Undo(ts[i])]
  }

  /** Undoes every token, the last acquired first. */
  function UndoAll(ts: seq<Token>): (cs: seq<Call>)
    ensures |cs| == |ts|
  {
    UndoFrom(ts, 0)
  }

  /** What runs when step `k` fails. */
  function Rollback(v: Variant, k: nat): seq<Call>
    requires k < |Steps|
  {
    match v
    case AsWritten => AsWrittenRollback(Steps[k])
    case Repaired => UndoAll(HeldBefore(k))
  }

  /** One device as the scan meets it, with its environment: the I2C adapter
      numbers registered when it is probed and the steps the kernel refuses. */
  datatype Candidate = Candidate(dev: PciDev, adapters: set<int>, failing: set<Step>)

  /** The steps whose outcome the code never checks: the probe's result is
      used as is, and `gpiod_add_lookup_table` returns nothing. */
  const UncheckedSteps: set<Step> := {ProbeAdapter, AddLookup}

  /** Whether a step fails. A checked step fails when the kernel refuses it;
      an unchecked step never ends the build, except that the repaired driver
      gives up on the probe's -ENODEV. */
  predicate Fails(v: Variant, s: Step, nr: int, failing: set<Step>)
    ensures Fails(v, s, nr, failing) <==>
              || (s !in UncheckedSteps && s in failing)
              || (v == Repaired && s == ProbeAdapter && nr == -ENODEV)
  {
    match s
    case ProbeAdapter => v == Repaired && nr == -ENODEV
    case AddLookup => false
    case _ => s in failing
  }

  /** The index of the first step at or after `i` that fails. */
  function FirstFailureFrom(v: Variant, nr: int, failing: set<Step>, i: nat): (r: Option<nat>)
    requires i <= |Steps|
    ensures r.Some? ==>
              && i <= r.value < |Steps|
              && Fails(v, Steps[r.value], nr, failing)
              && forall j :: i <= j < r.value ==> !Fails(v, Steps[j], nr, failing)
    ensures r.None? ==> forall j :: i <= j < |Steps| ==> !Fails(v, Steps[j], nr, failing)
    decreases |Steps| - i
  {
    if i == |Steps| then None
    else if Fails(v, Steps[i], nr, failing) then Some(i)
    else FirstFailureFrom(v, nr, failing, i + 1)
  }

  datatype GpioChip = GpioChip(labelText: string, ngpio: nat, base: int)
  datatype PlatformDevice = PlatformDevice(name: string, id: int)
  /** `struct i2c_gpio_platform_data`; every field but `udelay` stays zero. */
  datatype I2cGpioPlatformData = I2cGpioPlatformData(udelay: nat)
  /** `struct gpiod_lookup`; a `None` key or connection id is a NULL pointer. */
  datatype LookupEntry = LookupEntry(key: Option<string>, chipHwnum: int, conId: Option<string>, idx: int, flags: int)
  datatype LookupTable = LookupTable(devId: string, table: seq<LookupEntry>)

  /** One `struct qm2_data` on the instance list. */
  datatype Instance = Instance(
    dev: PciDev,
    pins: Pins,
    nr: int,
    labelText: string,
    chip: GpioChip,
    platDev: PlatformDevice,
    platData: I2cGpioPlatformData,
    lookup: LookupTable
  )

  const UDelay: nat := 5
  /** The zero-filled entry that ends a lookup table. */
  const Terminator: LookupEntry := LookupEntry(None, 0, None, 0, 0)

  /** Every name inside one instance agrees: the label is formatted from the
      device's bus and slot and the adapter number and reads back as them, the
      chip is registered under that label with two lines, the platform device
      is ("i2c-gpio", nr), the lookup `dev_id` is "i2c-gpio.%d" of the same
      number (the platform device's name, which gpiolib compares it against)
      and reads back as it, and entries 0 and 1 map the chip's hardware lines
      0 and 1 to indices 0 and 1 before a zero terminator. */
  predicate WellNamed(inst: Instance) {
    && inst.labelText == Label(inst.dev.busNumber, Slot(inst.dev.devfn), inst.nr)
    && ParseLabel(inst.labelText) == Some(LabelFields(inst.dev.busNumber, Slot(inst.dev.devfn), inst.nr))
    && inst.chip == GpioChip(inst.labelText, 2, -1)
    && inst.platDev == PlatformDevice(PlatformName, inst.nr)
    && inst.lookup.devId == DevId(inst.nr)
    && inst.lookup.devId == inst.platDev.name + "." + Decimal(inst.platDev.id)
    && ParseDevId(inst.lookup.devId) == Some(inst.nr)
    && |inst.lookup.table| == 3
    && (forall i :: 0 <= i < 2 ==>
          && inst.lookup.table[i].key == Some(inst.labelText)
          && inst.lookup.table[i].chipHwnum == i
          && inst.lookup.table[i].idx == i
          && inst.lookup.table[i].conId.None?
          && inst.lookup.table[i].flags == 0)
    && inst.lookup.table[2] == Terminator
    && inst.pins == Qm2Pins
    && inst.platData.udelay == UDelay
  }

  /** The instance the fully successful path fills in. */
  function NewInstance(dev: PciDev, nr: int): (inst: Instance)
    ensures inst.dev == dev && inst.nr == nr
  {
    var text := Label(dev.busNumber, Slot(dev.devfn), nr);
    Instance(dev, Qm2Pins, nr, text,
      GpioChip(text, 2, -1),
      PlatformDevice(PlatformName, nr),
      I2cGpioPlatformData(UDelay),
      LookupTableFor(text, nr))
  }

  /** The lookup table filled in for a chip labelled `text`: the `dev_id`
      of adapter `nr` and two entries before the terminator. */
  function LookupTableFor(text: string, nr: int): LookupTable {
    LookupTable(DevId(nr), [
      LookupEntry(Some(text), 0, None, 0, 0),
      LookupEntry(Some(text), 1, None, 1, 0),
      Terminator])
  }

  /** Lookup entries 0 and 1 map the chip's lines to indices 0 and 1 under
      the chip's label, and entry 2 terminates the table. */
  lemma LookupTableEntries(text: string, nr: int)
    ensures var t := LookupTableFor(text, nr).table;
      && |t| == 3
      && (forall i :: 0 <= i < 2 ==>
            && t[i].key == Some(text) && t[i].chipHwnum == i && t[i].idx == i
            && t[i].conId.None? && t[i].flags == 0)
      && t[2] == Terminator
  {
    var t := LookupTableFor(text, nr).table;
    assert t[0] == LookupEntry(Some(text), 0, None, 0, 0);
    assert t[1] == LookupEntry(Some(text), 1, None, 1, 0);
  }

  lemma NewInstanceWellNamed(dev: PciDev, nr: int)
    ensures WellNamed(NewInstance(dev, nr))
  {
    var inst := NewInstance(dev, nr);
    assert inst.labelText == Label(dev.busNumber, Slot(dev.devfn), nr);
    assert inst.lookup == LookupTableFor(inst.labelText, nr);
    LabelRoundTrip(dev.busNumber, Slot(dev.devfn), nr);
    DevIdRoundTrip(nr);
    LookupTableEntries(inst.labelText, nr);
  }

  datatype BuildResult =
    | Built(inst: Instance, acquired: seq<Token>)
    | Skipped(failed: Step, acquired: seq<Token>, released: seq<Call>)

  /** What one build attempt leaves held, and the faults its releases raised. */
  function Residue(r: BuildResult): Ledger {
    match r
    case Built(_, acquired) => Acquire(Empty, acquired)
    case Skipped(_, acquired, released) => PerformAll(Acquire(Empty, acquired), released)
  }

  /** One pass of the scan loop body for an accepted device. The device is
      built iff no step fails; a built instance holds every token and carries
      the probed adapter number (-ENODEV included, as written). A failed
      attempt stops at the first step that fails, holds the tokens of the
      steps before it and runs that step's release list. */
  function TryBuild(v: Variant, c: Candidate): (r: BuildResult)
    ensures var nr := FirstFree(c.adapters, FirstNumber);
      && (r.Built? <==> forall k :: 0 <= k < |Steps| ==> !Fails(v, Steps[k], nr, c.failing))
      && (r.Built? ==>
            && r.inst.dev == c.dev && r.inst.nr == nr
            && r.acquired == HeldBefore(|Steps|))
      && (r.Skipped? ==>
            exists k :: 0 <= k < |Steps| && Steps[k] == r.failed
              && Fails(v, Steps[k], nr, c.failing)
              && (forall j :: 0 <= j < k ==> !Fails(v, Steps[j], nr, c.failing))
              && r.acquired == HeldBefore(k) && r.released == Rollback(v, k))
  {
    var nr := FirstFree(c.adapters, FirstNumber);
    match FirstFailureFrom(v, nr, c.failing, 0)
    case Some(k) => Skipped(Steps[k], HeldBefore(k), Rollback(v, k))
    case None => Built(NewInstance(c.dev, nr), HeldBefore(|Steps|))
  }

  /** Every instance a build produces is well named. */
  lemma BuiltWellNamed(v: Variant, c: Candidate)
    requires TryBuild(v, c).Built?
    ensures WellNamed(TryBuild(v, c).inst)
  {
    NewInstanceWellNamed(c.dev, FirstFree(c.adapters, FirstNumber));
  }
}

=== FILE: cleanup.dfy ===
/** What each failure path of the build gives back. As written, every path
    but the last returns the ledger to empty; the `platform_device_add`
    failure path releases the platform device twice, frees the lookup table
    while it is still registered and leaks the lookup `dev_id`. The repaired
    release lists undo exactly what is held, last acquired first, and return
    the ledger to empty on every path. */
module Cleanup {
  import opened Adapter
  import opened Resources
  import opened Build

  /** Replaying one more call at the end. */
  lemma {:induction false} PerformAllSnoc(l: Ledger, cs: seq<Call>, c: Call)
    ensures PerformAll(l, cs + [c]) == Perform(PerformAll(l, cs), c)
    decreases |cs|
  {
    if |cs| > 0 {
      assert (cs + [c])[1..] == cs[1..] + [c];
      PerformAllSnoc(Perform(l, cs[0]), cs[1..], c);
    }
  }

  /** The lookup table is registered, if at all, only after it was
      allocated: undoing in reverse order removes it from the lookup list
      before freeing it. */
  predicate RegisteredAfterAlloc(ts: seq<Token>)
  {
    forall i :: 0 <= i < |ts| && ts[i] == LookupMem ==> LookupReg !in ts[..i]
  }

  /** A call that gives up one held token, not freeing the lookup table
      while it is registered, just removes that token. */
  lemma PerformSingle(l: Ledger, c: Call)
    requires |Releases(c)| == 1 && Releases(c)[0] in l.held
    requires c == Kfree(LookupMem) ==> LookupReg !in l.held
    ensures Perform(l, c) == Ledger(l.held - {Releases(c)[0]}, l.faults)
  {
    var t := Releases(c)[0];
    assert Releases(c) == [t];
    assert [t][1..] == [];
    assert DropAll(l, [t]) == DropAll(Drop(l, t), []);
  }

  /** Undoing the token at position `i` from a ledger that holds the
      first `i + 1` tokens. */
  lemma UndoStep(ts: seq<Token>, i: nat, faults: seq<Fault>)
    requires i < |ts| && Distinct(ts) && RegisteredAfterAlloc(ts)
    ensures Perform(Ledger(Members(ts[..i + 1]), faults), Undo(ts[i]))
         == Ledger(Members(ts[..i]), faults)
  {
    var t := ts[i];
    assert ts[..i + 1] == ts[..i] + [t];
    var c := Undo(t);
    assert Releases(c) == [t];
    PerformSingle(Ledger(Members(ts[..i + 1]), faults), c);
    assert t !in ts[..i];
  }

  /** Undoing the tokens from position `i` on, starting from a ledger that
      holds exactly `ts`, leaves exactly the first `i` tokens held and
      raises no fault. */
  lemma {:induction false} UndoFromRun(l: Ledger, ts: seq<Token>, i: nat)
    requires i <= |ts| && l.held == Members(ts) && Distinct(ts) && RegisteredAfterAlloc(ts)
    ensures PerformAll(l, UndoFrom(ts, i)) == Ledger(Members(ts[..i]), l.faults)
    decreases |ts| - i
  {
    if i == |ts| {
      assert ts[..i] == ts;
    } else {
      UndoFromRun(l, ts, i + 1);
      PerformAllSnoc(l, UndoFrom(ts, i + 1), Undo(ts[i]));
      UndoStep(ts, i, l.faults);
    }
  }

  /** What the build holds when each step is reached, spelled out. */
  lemma {:induction false} HeldEarly(k: nat)
    requires k <= 5
    ensures k == 0 ==> HeldBefore(k) == []
    ensures k == 1 ==> HeldBefore(k) == [DataMem]
    ensures k == 2 ==> HeldBefore(k) == [DataMem]
    ensures k == 3 ==> HeldBefore(k) == [DataMem, LabelMem]
    ensures k == 4 ==> HeldBefore(k) == [DataMem, LabelMem, ChipReg]
    ensures k == 5 ==> HeldBefore(k) == [DataMem, LabelMem, ChipReg, PlatDevRef]
  {
    if k > 0 {
      HeldEarly(k - 1);
    }
  }

  lemma {:induction false} HeldLate(k: nat)
    requires 5 <= k <= 10
    ensures k == 6 ==> HeldBefore(k) == [DataMem, LabelMem, ChipReg, PlatDevRef, PlatDataMem]
    ensures k == 7 ==> HeldBefore(k) == [DataMem, LabelMem, ChipReg, PlatDevRef, PlatDataMem]
    ensures k == 8 ==> HeldBefore(k) == [DataMem, LabelMem, ChipReg, PlatDevRef, PlatDataMem, LookupMem]
    ensures k == 9 ==> HeldBefore(k) == [DataMem, LabelMem, ChipReg, PlatDevRef, PlatDataMem, LookupMem, DevIdMem]
    ensures k == 10 ==> HeldBefore(k) == [DataMem, LabelMem, ChipReg, PlatDevRef, PlatDataMem, LookupMem, DevIdMem, LookupReg]
  {
    if k == 5 {
      HeldEarly(5);
    } else {
      HeldLate(k - 1);
    }
  }

  /** The lookup table is registered only once `gpiod_add_lookup_table` has
      run, that is only when `platform_device_add` is the step that fails. */
  lemma LookupRegisteredLate(k: nat)
    requires k < |Steps|
    ensures LookupReg in HeldBefore(k) <==> Steps[k] == AddPlatDev
  {
    if k <= 5 {
      HeldEarly(k);
    } else {
      HeldLate(k);
    }
  }

  /** Everything the build ever holds is listed once. */
  lemma AllTokensDistinct()
    ensures Distinct(AllTokens)
  {
  }

  lemma AllTokensOrdered()
    ensures RegisteredAfterAlloc(AllTokens)
  {
  }

  lemma PrefixOrdered(a: seq<Token>, b: seq<Token>)
    requires RegisteredAfterAlloc(b) && a <= b
    ensures RegisteredAfterAlloc(a)
  {
    forall i | 0 <= i < |a| && a[i] == LookupMem
      ensures LookupReg !in a[..i]
    {
      assert a[..i] == b[..i];
    }
  }

  lemma PrefixDistinct(a: seq<Token>, b: seq<Token>)
    requires Distinct(b) && a <= b
    ensures Distinct(a)
  {
  }

  /** What the build holds at any step is an initial part of the full list. */
  lemma HeldBeforePrefix(k: nat)
    requires k < |Steps|
    ensures HeldBefore(k) <= AllTokens
  {
    if k <= 5 {
      HeldEarly(k);
    } else {
      HeldLate(k);
    }
  }

  /** The build never acquires a token twice. */
  lemma HeldBeforeDistinct(k: nat)
    requires k < |Steps|
    ensures Distinct(HeldBefore(k))
  {
    HeldBeforePrefix(k);
    AllTokensDistinct();
    PrefixDistinct(HeldBefore(k), AllTokens);
  }

  /** Whatever step fails, the repaired release list gives back exactly what
      the build holds at that point, each token once, and raises no fault. */
  lemma RepairedRollbackClean(k: nat)
    requires k < |Steps|
    ensures PerformAll(Acquire(Empty, HeldBefore(k)), Rollback(Repaired, k)) == Empty
  {
    var hs := HeldBefore(k);
    HeldBeforeDistinct(k);
    HeldBeforePrefix(k);
    AllTokensOrdered();
    PrefixOrdered(hs, AllTokens);
    UndoFromRun(Acquire(Empty, hs), hs, 0);
    assert hs[..0] == [];
  }

  /** The failure points whose as-written release list is a clean rollback:
      every one except `platform_device_add`, and except the two steps that
      have no failure branch. */
  predicate CleanAsWritten(k: nat)
  {
    k < |Steps| && Steps[k] !in {ProbeAdapter, AddLookup, AddPlatDev}
  }

  /** The as-written release lists of the early failure branches, read as
      undoing what is held, last acquired first. */
  lemma EarlyBranchesReverse()
    ensures AsWrittenRollback(AllocLabel) == UndoFrom([DataMem], 0)
    ensures AsWrittenRollback(AddChip) == UndoFrom([DataMem, LabelMem], 0)
    ensures AsWrittenRollback(AllocPlatDev) == UndoFrom([DataMem, LabelMem, ChipReg], 0)
  {
  }

  lemma LateBranchesReverse()
    ensures AsWrittenRollback(AllocPlatData) == UndoFrom([DataMem, LabelMem, ChipReg, PlatDevRef], 0)
    ensures AsWrittenRollback(AddPlatData) == UndoFrom([DataMem, LabelMem, ChipReg, PlatDevRef, PlatDataMem], 0)
    ensures AsWrittenRollback(AllocDevId) == UndoFrom([DataMem, LabelMem, ChipReg, PlatDevRef, PlatDataMem, LookupMem], 0)
  {
  }

  /** As written, each clean failure branch but the lookup-table allocation
      releases exactly in the reverse order of acquisition. */
  lemma AsWrittenIsReverse(k: nat)
    requires k < |Steps|
    ensures CleanAsWritten(k) && Steps[k] != AllocLookup ==> Rollback(AsWritten, k) == Rollback(Repaired, k)
  {
    if k <= 5 {
      HeldEarly(k);
    } else {
      HeldLate(k);
    }
    EarlyBranchesReverse();
    LateBranchesReverse();
    match k
    case 0 => case 1 => case 2 => case 3 => case 4 => case 5 => case 6 => case 7 => case 8 =>
    case 9 => case 10 =>
  }

  /** When the lookup table cannot be allocated, the code puts the platform
      device before it frees the platform data: the first two releases are
      swapped with respect to the reverse order. */
  lemma AsWrittenLookupSwap()
    ensures Rollback(Repaired, 7)
         == [Kfree(PlatDataMem), PlatformDevicePut, GpiochipRemove, Kfree(LabelMem), Kfree(DataMem)]
    ensures Rollback(AsWritten, 7)
         == [PlatformDevicePut, Kfree(PlatDataMem), GpiochipRemove, Kfree(LabelMem), Kfree(DataMem)]
  {
    HeldLate(7);
    assert UndoFrom([DataMem, LabelMem, ChipReg, PlatDevRef, PlatDataMem], 0)
      == [Kfree(PlatDataMem), PlatformDevicePut, GpiochipRemove, Kfree(LabelMem), Kfree(DataMem)];
  }

  lemma PerformPair(l: Ledger, a: Call, b: Call, rest: seq<Call>)
    ensures PerformAll(l, [a, b] + rest) == PerformAll(Perform(Perform(l, a), b), rest)
  {
    assert ([a, b] + rest)[1..] == [b] + rest && ([b] + rest)[1..] == rest;
  }

  /** Two releases of distinct held tokens commute. */
  lemma CommuteReleases(l: Ledger, a: Call, b: Call)
    requires |Releases(a)| == 1 && |Releases(b)| == 1
    requires Releases(a)[0] in l.held && Releases(b)[0] in l.held
    requires Releases(a)[0] != Releases(b)[0]
    requires a != Kfree(LookupMem) && b != Kfree(LookupMem)
    ensures Perform(Perform(l, a), b) == Perform(Perform(l, b), a)
  {
    var x, y := Releases(a)[0], Releases(b)[0];
    PerformSingle(l, a);
    PerformSingle(Perform(l, a), b);
    PerformSingle(l, b);
    PerformSingle(Perform(l, b), a);
    var h := l.held;
    assert h - {x} - {y} == h - {y} - {x};
  }

  /** The lookup-table allocation branch releases out of order, but the two
      swapped releases commute, so it still returns the ledger to empty. */
  lemma LookupBranchClean()
    ensures PerformAll(Acquire(Empty, HeldBefore(7)), Rollback(AsWritten, 7)) == Empty
  {
    RepairedRollbackClean(7);
    AsWrittenLookupSwap();
    HeldLate(7);
    var l := Acquire(Empty, HeldBefore(7));
    var rest := [GpiochipRemove, Kfree(LabelMem), Kfree(DataMem)];
    CommuteReleases(l, Kfree(PlatDataMem), PlatformDevicePut);
    PerformPair(l, Kfree(PlatDataMem), PlatformDevicePut, rest);
    PerformPair(l, PlatformDevicePut, Kfree(PlatDataMem), rest);
  }

  /** Every as-written failure branch before `platform_device_add` gives back
      exactly what the build holds at that point, each token once, and
      raises no fault. */
  lemma AsWrittenRollbackClean(k: nat)
    requires CleanAsWritten(k)
    ensures PerformAll(Acquire(Empty, HeldBefore(k)), Rollback(AsWritten, k)) == Empty
  {
    if k == 7 {
      LookupBranchClean();
    } else {
      LookupAllocAt(k);
      RepairedRollbackClean(k);
      AsWrittenIsReverse(k);
    }
  }

  /** The lookup-table allocation is step 7 and no other. */
  lemma LookupAllocAt(k: nat)
    requires k < |Steps|
    ensures Steps[k] == AllocLookup <==> k == 7
  {
    match k
    case 0 => case 1 => case 2 => case 3 => case 4 => case 5 => case 6 => case 7 => case 8 =>
    case 9 => case 10 =>
  }

  /** Freeing the lookup table while it is registered is logged, and the
      memory is still given up. */
  lemma FreeRegisteredLookup(l: Ledger)
    requires LookupMem in l.held && LookupReg in l.held
    ensures Perform(l, Kfree(LookupMem))
         == Ledger(l.held - {LookupMem}, l.faults + [FreedWhileRegistered(LookupMem)])
  {
    assert [LookupMem][1..] == [];
  }

  /** Releasing a token that is no longer held is logged and changes nothing
      else. */
  lemma ReleaseUnheld(l: Ledger, c: Call)
    requires |Releases(c)| == 1 && Releases(c)[0] !in l.held && c != Kfree(LookupMem)
    ensures Perform(l, c) == Ledger(l.held, l.faults + [DoubleRelease(Releases(c)[0])])
  {
    var t := Releases(c)[0];
    assert Releases(c) == [t];
    assert [t][1..] == [];
    assert DropAll(l, [t]) == DropAll(Drop(l, t), []);
  }

  /** Replaying calls one by one through a table of the ledgers expected
      after each of them. */
  lemma {:induction false} Replay(after: nat -> Ledger, cs: seq<Call>, i: nat)
    requires i <= |cs|
    requires forall j :: i <= j < |cs| ==> Perform(after(j), cs[j]) == after(j + 1)
    ensures PerformAll(after(i), cs[i..]) == after(|cs|)
    decreases |cs| - i
  {
    if i < |cs| {
      Replay(after, cs, i + 1);
      assert cs[i..][1..] == cs[i + 1..];
    }
  }

  /** The tokens the build holds when `platform_device_add` fails. */
  const HeldAtLast: set<Token> :=
    {DataMem, LabelMem, ChipReg, PlatDevRef, PlatDataMem, LookupMem, DevIdMem, LookupReg}

  const LastBranchCalls: seq<Call> :=
    [PlatformDevicePut, Kfree(LookupMem), Kfree(PlatDataMem), Kfree(PlatDevRef),
     GpiochipRemove, Kfree(LabelMem), Kfree(DataMem)]

  /** The ledger after the first `i` calls of the as-written
      `platform_device_add` failure branch. */
  function LastBranchAfter(i: nat): Ledger
  {
    var freed := [FreedWhileRegistered(LookupMem)];
    var both := freed + [DoubleRelease(PlatDevRef)];
    match i
    case 0 => Ledger(HeldAtLast, [])
    case 1 => Ledger(HeldAtLast - {PlatDevRef}, [])
    case 2 => Ledger(HeldAtLast - {PlatDevRef} - {LookupMem}, freed)
    case 3 => Ledger(HeldAtLast - {PlatDevRef} - {LookupMem} - {PlatDataMem}, freed)
    case 4 => Ledger(HeldAtLast - {PlatDevRef} - {LookupMem} - {PlatDataMem}, both)
    case 5 => Ledger(HeldAtLast - {PlatDevRef} - {LookupMem} - {PlatDataMem}
                     - {ChipReg}, both)
    case 6 => Ledger(HeldAtLast - {PlatDevRef} - {LookupMem} - {PlatDataMem}
                     - {ChipReg} - {LabelMem}, both)
    case _ => Ledger(HeldAtLast - {PlatDevRef} - {LookupMem} - {PlatDataMem}
                     - {ChipReg} - {LabelMem} - {DataMem}, both)
  }

  lemma LastBranchStep(i: nat)
    requires i < |LastBranchCalls|
    ensures Perform(LastBranchAfter(i), LastBranchCalls[i]) == LastBranchAfter(i + 1)
  {
    var l := LastBranchAfter(i);
    match i
    case 0 => PerformSingle(l, PlatformDevicePut);
    case 1 => FreeRegisteredLookup(l);
    case 2 => PerformSingle(l, Kfree(PlatDataMem));
    case 3 => ReleaseUnheld(l, Kfree(PlatDevRef));
    case 4 => PerformSingle(l, GpiochipRemove);
    case 5 => PerformSingle(l, Kfree(LabelMem));
    case 6 => PerformSingle(l, Kfree(DataMem));
  }

  lemma LastBranchEnds()
    ensures LastBranchAfter(|LastBranchCalls|)
         == Ledger({DevIdMem, LookupReg},
                   [FreedWhileRegistered(LookupMem), DoubleRelease(PlatDevRef)])
  {
  }

  /** The `platform_device_add` failure branch as written: it puts the
      platform device and then frees it again, frees the lookup table while
      it is still registered, and never removes the table nor frees its
      `dev_id`. */
  lemma AsWrittenLastRollback()
    ensures PerformAll(Acquire(Empty, HeldBefore(10)), Rollback(AsWritten, 10))
         == Ledger({DevIdMem, LookupReg},
                   [FreedWhileRegistered(LookupMem), DoubleRelease(PlatDevRef)])
  {
    HeldLate(10);
    assert Rollback(AsWritten, 10) == LastBranchCalls[0..];
    assert Acquire(Empty, HeldBefore(10)) == LastBranchAfter(0);
    forall i | 0 <= i < |LastBranchCalls|
      ensures Perform(LastBranchAfter(i), LastBranchCalls[i]) == LastBranchAfter(i + 1)
    {
      LastBranchStep(i);
    }
    Replay(LastBranchAfter, LastBranchCalls, 0);
    LastBranchEnds();
  }

  /** The ledger the code as written leaves when `platform_device_add` fails. */
  const LastBranchResidue: Ledger :=
    Ledger({DevIdMem, LookupReg}, [FreedWhileRegistered(LookupMem), DoubleRelease(PlatDevRef)])

  /** What the release list run at failure point `k` leaves behind. */
  lemma RollbackResidue(v: Variant, k: nat)
    requires k < |Steps| && Steps[k] != AddLookup && (v == AsWritten ==> Steps[k] != ProbeAdapter)
    ensures v == Repaired || Steps[k] != AddPlatDev ==>
              PerformAll(Acquire(Empty, HeldBefore(k)), Rollback(v, k)) == Empty
    ensures v == AsWritten && Steps[k] == AddPlatDev ==>
              PerformAll(Acquire(Empty, HeldBefore(k)), Rollback(v, k)) == LastBranchResidue
  {
    if v == Repaired {
      RepairedRollbackClean(k);
    } else if k == 10 {
      AsWrittenLastRollback();
    } else {
      AsWrittenRollbackClean(k);
    }
  }

  /** What a failed build leaves behind: nothing, except when the code as
      written fails at `platform_device_add`. */
  lemma SkippedResidue(v: Variant, c: Candidate)
    requires TryBuild(v, c).Skipped?
    ensures v == Repaired || TryBuild(v, c).failed != AddPlatDev ==> Residue(TryBuild(v, c)) == Empty
    ensures v == AsWritten && TryBuild(v, c).failed == AddPlatDev ==> Residue(TryBuild(v, c)) == LastBranchResidue
  {
    var f := FirstFailureFrom(v, FirstFree(c.adapters, FirstNumber), c.failing, 0);
    var k := f.value;
    RollbackResidue(v, k);
  }
}

=== FILE: format.dfy ===
/** The `printf` conversions the driver uses to build names (`%0<w>x` and
    `%d`), together with the matching parsers, so that a name can be shown to
    determine the numbers it was made from. */
module Format {
  import opened Wrappers

  /** The lower-case digit character for a value below 16, as `%x` and `%d`
      print it. */
  function DigitChar(d: nat): char
    requires d < 16
  {
    if d < 10 then ('0' as int + d) as char else ('a' as int + d - 10) as char
  }

  /** The value of a lower-case hexadecimal digit character. */
  function DigitValue(c: char): (r: Option<nat>)
    ensures r.Some? ==> r.value < 16 && DigitChar(r.value) == c
  {
    if '0' <= c <= '9' then Some((c - '0') as nat)
    else if 'a' <= c <= 'f' then Some((c - 'a') as nat + 10)
    else None
  }

  lemma DigitCharValue(d: nat)
    requires d < 16
    ensures DigitValue(DigitChar(d)) == Some(d)
  {
  }

  /** The two radices the driver prints in. */
  type Base = b: nat | b == 10 || b == 16 witness 10

  /** Euclidean division by a radix: quotient and digit rebuild the number. */
  lemma DivMod(n: nat, base: Base)
    ensures n == (n / base) * base + n % base
    ensures n % base < base
    ensures n >= base ==> 1 <= n / base < n
  {
    if base == 10 {
      assert n == (n / 10) * 10 + n % 10;
    } else {
      assert n == (n / 16) * 16 + n % 16;
    }
  }

  function Pow(b: nat, e: nat): nat {
    if e == 0 then 1 else b * Pow(b, e - 1)
  }

  /** The digits of `n` in `base`, most significant first: at least one
      digit, each a valid digit of the base. */
  function Digits(n: nat, base: Base): (s: string)
    ensures |s| >= 1
    ensures forall i :: 0 <= i < |s| ==>
              DigitValue(s[i]).Some? && DigitValue(s[i]).value < base
    decreases n
  {
    DigitCharValue(n % base);
    if n < base then [DigitChar(n)]
    else Digits(n / base, base) + [DigitChar(n % base)]
  }

  /** Reads a non-empty string of digits of `base`, most significant first. */
  function ParseDigits(s: string, base: Base): Option<nat>
    decreases |s|
  {
    if |s| == 0 then None
    else
      var d := DigitValue(s[|s| - 1]);
      if d.None? || d.value >= base then None
      else if |s| == 1 then Some(d.value)
      else match ParseDigits(s[..|s| - 1], base)
        case None => None
        case Some(h) => Some(h * base + d.value)
  }

  /** One more digit at the end: the value read so far times the base, plus
      that digit. */
  lemma ParseSnoc(s: string, c: char, base: Base, h: nat, d: nat)
    requires |s| >= 1 && ParseDigits(s, base) == Some(h)
    requires DigitValue(c) == Some(d) && d < base
    ensures ParseDigits(s + [c], base) == Some(h * base + d)
  {
    assert (s + [c])[..|s|] == s;
  }

  /** Strings that read the same still read the same with one more
      character. */
  lemma ParseSnocSame(a: string, b: string, c: char, base: Base)
    requires |a| >= 1 && |b| >= 1 && ParseDigits(a, base) == ParseDigits(b, base)
    ensures ParseDigits(a + [c], base) == ParseDigits(b + [c], base)
  {
    assert (a + [c])[..|a|] == a;
    assert (b + [c])[..|b|] == b;
  }

  lemma DigitsSnoc(n: nat, base: Base)
    requires n >= base
    ensures Digits(n, base) == Digits(n / base, base) + [DigitChar(n % base)]
  {
  }

  lemma {:induction false} ParseDigitsRoundTrip(n: nat, base: Base)
    ensures ParseDigits(Digits(n, base), base) == Some(n)
    decreases n
  {
    DivMod(n, base);
    if n < base {
      DigitCharValue(n);
      assert Digits(n, base) == [DigitChar(n)];
    } else {
      var q, r := n / base, n % base;
      ParseDigitsRoundTrip(q, base);
      DigitCharValue(r);
      DigitsSnoc(n, base);
      ParseSnoc(Digits(q, base), DigitChar(r), base, q, r);
    }
  }

  function Zeros(k: nat): (s: string)
    ensures |s| == k
  {
    seq(k, _ => '0')
  }

  lemma {:induction false} ParseZeros(k: nat, base: Base)
    requires k >= 1
    ensures ParseDigits(Zeros(k), base) == Some(0)
  {
    if k > 1 {
      assert Zeros(k)[..k - 1] == Zeros(k - 1);
      ParseZeros(k - 1, base);
    }
  }

  /** Leading zeros do not change the value read. */
  lemma {:induction false} ParseLeadingZeros(k: nat, s: string, base: Base)
    requires |s| >= 1
    ensures ParseDigits(Zeros(k) + s, base) == ParseDigits(s, base)
    decreases |s|
  {
    var t := Zeros(k) + s;
    if k == 0 {
      assert t == s;
    } else if |s| == 1 {
      assert t[..|t| - 1] == Zeros(k);
      ParseZeros(k, base);
    } else {
      var init, c := s[..|s| - 1], s[|s| - 1];
      assert s == init + [c];
      assert t == (Zeros(k) + init) + [c];
      ParseLeadingZeros(k, init, base);
      ParseSnocSame(Zeros(k) + init, init, c, base);
    }
  }

  function PadLeft(s: string, width: nat): (r: string)
    ensures |r| == if |s| >= width then |s| else width
  {
    if |s| >= width then s else Zeros(width - |s|) + s
  }

  /** `%0<width>x`. */
  function Hex(n: nat, width: nat): string {
    PadLeft(Digits(n, 16), width)
  }

  /** `%d`. */
  function Decimal(n: int): string {
    if n < 0 then "-" + Digits(-n, 10) else Digits(n, 10)
  }

  function ParseDecimal(s: string): Option<int> {
    if |s| > 0 && s[0] == '-' then
      match ParseDigits(s[1..], 10)
      case None => None
      case Some(m) => Some(-(m as int))
    else
      match ParseDigits(s, 10)
      case None => None
      case Some(m) => Some(m as int)
  }

  /** `%0<width>x` is read back by the hexadecimal parser. */
  lemma HexRoundTrip(n: nat, width: nat)
    ensures ParseDigits(Hex(n, width), 16) == Some(n)
  {
    var d := Digits(n, 16);
    if |d| < width {
      ParseLeadingZeros(width - |d|, d, 16);
    }
    ParseDigitsRoundTrip(n, 16);
  }

  lemma {:induction false} DigitsLength(n: nat, base: Base, width: nat)
    requires width >= 1 && n < Pow(base, width)
    ensures |Digits(n, base)| <= width
    decreases n
  {
    if n >= base {
      assert Pow(base, 1) == base;
      assert n / base < Pow(base, width - 1) by {
        assert n < base * Pow(base, width - 1);
      }
      DigitsLength(n / base, base, width - 1);
    }
  }

  /** A number below 16^width prints in exactly `width` characters. */
  lemma HexWidth(n: nat, width: nat)
    requires width >= 1 && n < Pow(16, width)
    ensures |Hex(n, width)| == width
  {
    DigitsLength(n, 16, width);
  }

  /** `%d` is read back by the decimal parser, negative numbers included. */
  lemma DecimalRoundTrip(n: int)
    ensures ParseDecimal(Decimal(n)) == Some(n)
  {
    if n < 0 {
      var m: nat := -n;
      var d := Digits(m, 10);
      assert Decimal(n) == "-" + d;
      assert ("-" + d)[1..] == d;
      ParseDigitsRoundTrip(m, 10);
    } else {
      var d := Digits(n, 10);
      assert Decimal(n) == d;
      assert DigitValue(d[0]).Some?;
      assert d[0] != '-';
      ParseDigitsRoundTrip(n, 10);
    }
  }
}

=== FILE: gpio.dfy ===
/** The four gpio_chip callbacks of the ASM2824 driver (`direction_input`,
    `direction_output`, `get`, `set`), each a read-modify-write of one byte in
    the bridge's configuration space, as pure functions over `ConfigSpace`. */
module Gpio {
  import opened Registers

  /** A bit position inside a register byte. */
  type BitIndex = b: nat | b < 8

  /** Which register bit carries each line (`qm2_data.sda` / `qm2_data.scl`). */
  datatype Pins = Pins(sda: BitIndex, scl: BitIndex)

  /** The wiring every instance is given: data on bit 1, clock on bit 0. */
  const Qm2Pins: Pins := Pins(1, 0)

  /** Line offset 1 is the clock line; every other offset selects the data line. */
  function LineBit(p: Pins, offset: nat): BitIndex {
    if offset == 1 then p.scl else p.sda
  }

  function Mask(b: BitIndex): bv8 {
    (1 as bv8) << b
  }

  predicate BitSet(x: bv8, b: BitIndex) {
    x & Mask(b) != 0
  }

  /** `x & ~mask`: the bit is cleared, every other bit is kept. */
  function ClearBit(x: bv8, k: BitIndex): (r: bv8)
    ensures !BitSet(r, k)
    ensures forall b: BitIndex :: b != k ==> BitSet(r, b) == BitSet(x, b)
  {
    x & !Mask(k)
  }

  /** `x | mask`: the bit is set, every other bit is kept. */
  function SetBit(x: bv8, k: BitIndex): (r: bv8)
    ensures BitSet(r, k)
    ensures forall b: BitIndex :: b != k ==> BitSet(r, b) == BitSet(x, b)
  {
    x | Mask(k)
  }

  /** What a callback leaves behind: the register file and its return code. */
  datatype Reply = Reply(cs: ConfigSpace, ret: int)

  /** `qm2mod_asm2824_set_dir`: latch 0x0FFF, then clear the line's bit of the
      direction register when `value` is non-zero and set it when `value` is
      zero. Always returns 0. */
  function SetDir(cs: ConfigSpace, p: Pins, offset: nat, value: int): (r: Reply)
    ensures r.ret == 0
    ensures r.cs.enable == 1
    ensures r.cs.output == cs.output && r.cs.input == cs.input
    ensures BitSet(r.cs.direction, LineBit(p, offset)) <==> value == 0
    ensures forall b: BitIndex :: b != LineBit(p, offset) ==>
              BitSet(r.cs.direction, b) == BitSet(cs.direction, b)
  {
    var cs1 := Write(cs, Enable, 1);
    var bit := LineBit(p, offset);
    var tmp := Read(cs1, Direction);
    var tmp' := if value != 0 then ClearBit(tmp, bit) else SetBit(tmp, bit);
    Reply(Write(cs1, Direction, tmp'), 0)
  }

  /** `qm2mod_asm2824_set_dir_in`: input is represented by a CLEARED bit. */
  function DirectionInput(cs: ConfigSpace, p: Pins, offset: nat): (r: Reply)
    ensures r.ret == 0 && r.cs.enable == 1
    ensures !BitSet(r.cs.direction, LineBit(p, offset))
    ensures forall b: BitIndex :: b != LineBit(p, offset) ==>
              BitSet(r.cs.direction, b) == BitSet(cs.direction, b)
    ensures r.cs.output == cs.output && r.cs.input == cs.input
  {
    SetDir(cs, p, offset, 1)
  }

  /** `qm2mod_asm2824_set_dir_out`: the requested output LEVEL is passed on as
      the direction flag, so a high level makes the line an input and the
      level itself never reaches the output register. */
  function DirectionOutput(cs: ConfigSpace, p: Pins, offset: nat, value: int): (r: Reply)
    ensures r.ret == 0 && r.cs.enable == 1
    ensures BitSet(r.cs.direction, LineBit(p, offset)) <==> value == 0
    ensures forall b: BitIndex :: b != LineBit(p, offset) ==>
              BitSet(r.cs.direction, b) == BitSet(cs.direction, b)
    ensures r.cs.output == cs.output && r.cs.input == cs.input
    ensures value != 0 ==> r == DirectionInput(cs, p, offset)
  {
    SetDir(cs, p, offset, value)
  }

  /** `qm2mod_asm2824_get`: the line's bit of the input register 0x0930. */
  function Get(cs: ConfigSpace, p: Pins, offset: nat): (r: int)
    ensures r == 0 || r == 1
    ensures r == 1 <==> BitSet(cs.input, LineBit(p, offset))
  {
    ((Read(cs, Input) >> LineBit(p, offset)) & 1) as int
  }

  /** `qm2mod_asm2824_set`: the line's bit of the output register 0x0928 becomes
      1 iff `value` is non-zero; nothing else changes. */
  function Set(cs: ConfigSpace, p: Pins, offset: nat, value: int): (cs': ConfigSpace)
    ensures BitSet(cs'.output, LineBit(p, offset)) <==> value != 0
    ensures forall b: BitIndex :: b != LineBit(p, offset) ==>
              BitSet(cs'.output, b) == BitSet(cs.output, b)
    ensures cs'.enable == cs.enable && cs'.direction == cs.direction && cs'.input == cs.input
  {
    var bit := LineBit(p, offset);
    var tmp := Read(cs, Output);
    var tmp' := if value != 0 then SetBit(tmp, bit) else ClearBit(tmp, bit);
    Write(cs, Output, tmp')
  }

  /** Two register bytes that agree on every bit are equal. */
  lemma BitsDetermineByte(x: bv8, y: bv8)
    requires forall b: BitIndex :: BitSet(x, b) == BitSet(y, b)
    ensures x == y
  {
    assert BitSet(x, 0) == BitSet(y, 0) && BitSet(x, 1) == BitSet(y, 1);
    assert BitSet(x, 2) == BitSet(y, 2) && BitSet(x, 3) == BitSet(y, 3);
    assert BitSet(x, 4) == BitSet(y, 4) && BitSet(x, 5) == BitSet(y, 5);
    assert BitSet(x, 6) == BitSet(y, 6) && BitSet(x, 7) == BitSet(y, 7);
  }

  /** Writing the same level twice is the same as writing it once. */
  lemma SetIdempotent(cs: ConfigSpace, p: Pins, offset: nat, value: int)
    ensures Set(Set(cs, p, offset, value), p, offset, value) == Set(cs, p, offset, value)
  {
    var once := Set(cs, p, offset, value);
    BitsDetermineByte(Set(once, p, offset, value).output, once.output);
  }

  /** Repeating a direction change leaves the same register file. */
  lemma SetDirIdempotent(cs: ConfigSpace, p: Pins, offset: nat, value: int)
    ensures SetDir(SetDir(cs, p, offset, value).cs, p, offset, value) == SetDir(cs, p, offset, value)
  {
    var once := SetDir(cs, p, offset, value).cs;
    BitsDetermineByte(SetDir(once, p, offset, value).cs.direction, once.direction);
  }

  /** With the driver's wiring the two lines use different bits. */
  lemma LinesDisjoint(a: nat, b: nat)
    requires (a == 1) != (b == 1)
    ensures LineBit(Qm2Pins, a) != LineBit(Qm2Pins, b)
    ensures Mask(LineBit(Qm2Pins, a)) & Mask(LineBit(Qm2Pins, b)) == 0
  {
  }

  /** Any callback on one line leaves the other line's direction and output
      bits, and what `get` reports for it, unchanged. */
  lemma OtherLineUntouched(cs: ConfigSpace, a: nat, b: nat, value: int)
    requires (a == 1) != (b == 1)
    ensures var bit := LineBit(Qm2Pins, b);
      && BitSet(SetDir(cs, Qm2Pins, a, value).cs.direction, bit) == BitSet(cs.direction, bit)
      && BitSet(Set(cs, Qm2Pins, a, value).output, bit) == BitSet(cs.output, bit)
      && Get(Set(cs, Qm2Pins, a, value), Qm2Pins, b) == Get(cs, Qm2Pins, b)
  {
    LinesDisjoint(a, b);
  }

  /** `set` writes 0x0928 while `get` reads 0x0930, so a write is never
      observed by a read through these callbacks alone. */
  lemma GetIgnoresSet(cs: ConfigSpace, p: Pins, offset: nat, value: int, other: nat)
    ensures Get(Set(cs, p, offset, value), p, other) == Get(cs, p, other)
    ensures Get(SetDir(cs, p, offset, value).cs, p, other) == Get(cs, p, other)
  {
  }
}

=== FILE: names.dfy ===
/** The names an instance is given: the gpio_chip label built with
    `"gpio-asm2824_%04x:%02x_%d"` and the lookup table's `dev_id` built with
    `"i2c-gpio.%d"`, together with parsers proving that each name determines
    the numbers that went into it. */
module Names {
  import opened Wrappers
  import opened Format

  const LabelPrefix: string := "gpio-asm2824_"

  /** `platform_device_alloc("i2c-gpio", nr)` and the i2c-gpio driver's name. */
  const PlatformName: string := "i2c-gpio"

  /** The three numbers a label is made from. */
  datatype LabelFields = LabelFields(bus: nat, slot: nat, nr: int)

  /** `kasprintf("gpio-asm2824_%04x:%02x_%d", bus->number, PCI_SLOT(devfn), i2c_nr)`. */
  function Label(bus: U8, slot: nat, nr: int): (s: string)
    requires slot < 32
    ensures |s| >= 22 && s[..13] == LabelPrefix && s[17] == ':' && s[20] == '_'
  {
    assert Pow(16, 4) == 0x1_0000 && Pow(16, 2) == 0x100;
    HexWidth(bus, 4);
    HexWidth(slot, 2);
    DecimalNonEmpty(nr);
    LabelLayout(Hex(bus, 4), Hex(slot, 2), Decimal(nr));
    LabelPrefix + Hex(bus, 4) + ":" + Hex(slot, 2) + "_" + Decimal(nr)
  }

  /** Reads a label back: four hex digits of bus, `:`, two hex digits of slot,
      `_`, then a decimal adapter number. */
  function ParseLabel(s: string): Option<LabelFields> {
    if |s| < 22 || s[..13] != LabelPrefix || s[17] != ':' || s[20] != '_' then None
    else
      match (ParseDigits(s[13..17], 16), ParseDigits(s[18..20], 16), ParseDecimal(s[21..]))
      case (Some(bus), Some(slot), Some(nr)) => Some(LabelFields(bus, slot, nr))
      case _ => None
  }

  /** `kasprintf("i2c-gpio.%d", i2c_nr)`: the lookup table's `dev_id`, which is
      also the name the platform device `("i2c-gpio", nr)` is registered under. */
  function DevId(nr: int): (s: string)
    ensures |s| > 9 && s[..9] == PlatformName + "."
  {
    DecimalNonEmpty(nr);
    PlatformName + "." + Decimal(nr)
  }

  function ParseDevId(s: string): Option<int> {
    if |s| > 9 && s[..9] == PlatformName + "." then ParseDecimal(s[9..]) else None
  }

  /** Where each field of a label sits. */
  lemma LabelLayout(h4: string, h2: string, d: string)
    requires |h4| == 4 && |h2| == 2 && |d| >= 1
    ensures var s := LabelPrefix + h4 + ":" + h2 + "_" + d;
      && |s| >= 22 && s[..13] == LabelPrefix && s[13..17] == h4 && s[17] == ':'
      && s[18..20] == h2 && s[20] == '_' && s[21..] == d
  {
  }

  lemma DecimalNonEmpty(nr: int)
    ensures |Decimal(nr)| >= 1
  {
    if nr >= 0 {
      assert Decimal(nr) == Digits(nr, 10);
    }
  }

  /** A label determines the bus, slot and adapter number it was built from,
      so instances that differ in bus, slot or adapter number never share
      a label. */
  lemma LabelRoundTrip(bus: U8, slot: nat, nr: int)
    requires slot < 32
    ensures ParseLabel(Label(bus, slot, nr)) == Some(LabelFields(bus, slot, nr))
  {
    assert Pow(16, 4) == 0x1_0000 && Pow(16, 2) == 0x100;
    HexWidth(bus, 4);
    HexWidth(slot, 2);
    HexRoundTrip(bus, 4);
    HexRoundTrip(slot, 2);
    DecimalRoundTrip(nr);
    DecimalNonEmpty(nr);
    LabelLayout(Hex(bus, 4), Hex(slot, 2), Decimal(nr));
  }

  /** The slot field of a label made for slot 0 reads "00". */
  lemma SlotZeroLabel(bus: U8, nr: int)
    ensures |Label(bus, 0, nr)| >= 20 && Label(bus, 0, nr)[18..20] == "00"
  {
    assert Pow(16, 4) == 0x1_0000;
    HexWidth(bus, 4);
    assert Hex(0, 2) == "00";
    DecimalNonEmpty(nr);
    LabelLayout(Hex(bus, 4), "00", Decimal(nr));
  }

  /** The lookup `dev_id` determines the adapter number it was built from. */
  lemma DevIdRoundTrip(nr: int)
    ensures ParseDevId(DevId(nr)) == Some(nr)
  {
    DecimalNonEmpty(nr);
    assert DevId(nr)[..9] == PlatformName + ".";
    assert DevId(nr)[9..] == Decimal(nr);
    DecimalRoundTrip(nr);
  }
}

=== FILE: pci.dfy ===
/** The PCI device fields the driver reads and the per-device acceptance
    filter of `qm2mod_init`. */
module Pci {
  import opened Wrappers

  datatype PciDev = PciDev(
    vendor: U16,
    device: U16,
    subsystemVendor: U16,
    subsystemDevice: U16,
    devfn: U8,       // 8-bit encoded slot and function
    classCode: U32,    // 24-bit class code: base class, sub-class, prog-if
    busNumber: U8
  )

  /** `PCI_CLASS_BRIDGE_PCI`: base class 0x06, sub-class 0x04. */
  const ClassBridgePci: int := 0x0604
  const QnapSubsystemVendor: int := 0x1BAA

  /** `PCI_SLOT(devfn)`: bits 3..7 of devfn. */
  function Slot(devfn: U8): (s: nat)
    ensures s * 8 <= devfn < s * 8 + 8
    ensures s < 32
  {
    (devfn / 8) % 32
  }

  /** `PCI_FUNC(devfn)`: bits 0..2 of devfn. */
  function Func(devfn: U8): (f: nat)
    ensures f < 8
  {
    devfn % 8
  }

  /** The skip condition, as written in the scan loop: a device is skipped iff
      it is not slot 0 function 0, not a PCI-to-PCI bridge, or one of the
      excluded subsystems. */
  predicate Skip(d: PciDev)
    ensures Skip(d) <==>
              || Slot(d.devfn) != 0 || Func(d.devfn) != 0
              || d.classCode / 0x100 != ClassBridgePci
              || (d.subsystemVendor, d.subsystemDevice) in ExcludedSubsystems
  {
    || d.devfn != 0
    || d.classCode / 0x100 != ClassBridgePci
    || (d.subsystemVendor == QnapSubsystemVendor
        && (d.subsystemDevice == 0xC027 || d.subsystemDevice == 0xE009))
  }

  predicate Accept(d: PciDev) {
    !Skip(d)
  }

  /** The QNAP boards whose bridge does not expose the GPIO feature. */
  const ExcludedSubsystems: set<(int, int)> := {(0x1BAA, 0xC027), (0x1BAA, 0xE009)}

  /** The filter equals "slot 0 function 0, a PCI-to-PCI bridge, and not one of
      the excluded subsystems". */
  lemma AcceptCharacterised(d: PciDev)
    ensures Accept(d) <==>
              && Slot(d.devfn) == 0 && Func(d.devfn) == 0
              && d.classCode / 0x100 == ClassBridgePci
              && (d.subsystemVendor, d.subsystemDevice) !in ExcludedSubsystems
  {
  }

  /** An excluded QNAP subsystem is never accepted, while another device id
      under the same subsystem vendor is. */
  lemma SubsystemExamples(d: PciDev)
    requires d.devfn == 0 && d.classCode / 0x100 == ClassBridgePci
    requires d.subsystemVendor == 0x1BAA
    ensures d.subsystemDevice == 0xC027 ==> !Accept(d)
    ensures d.subsystemDevice == 0xE009 ==> !Accept(d)
    ensures d.subsystemDevice == 0xAAAA ==> Accept(d)
  {
  }
}

=== FILE: registers.dfy ===
/** The slice of an ASM2824 bridge's PCI configuration space that the driver
    touches: four single-byte registers. The PCI config transport itself is
    replaced by this in-memory record. */
module Registers {

  /** The four registers, one field per offset. */
  datatype ConfigSpace = ConfigSpace(
    enable: bv8,     // 0x0FFF, written 1 before every direction change
    direction: bv8,  // 0x0920, one direction bit per line
    output: bv8,     // 0x0928, output level per line
    input: bv8       // 0x0930, input level per line
  )

  datatype Reg = Enable | Direction | Output | Input

  /** The configuration-space offset of each register. */
  function Offset(r: Reg): (off: nat)
    ensures off < 0x1000
  {
    match r
    case Enable => 0x0FFF
    case Direction => 0x0920
    case Output => 0x0928
    case Input => 0x0930
  }

  /** `pci_read_config_byte` at the register's offset. */
  function Read(cs: ConfigSpace, r: Reg): bv8 {
    match r
    case Enable => cs.enable
    case Direction => cs.direction
    case Output => cs.output
    case Input => cs.input
  }

  /** `pci_write_config_byte` at the register's offset: the written register
      reads back the value and every other register keeps its value. */
  function Write(cs: ConfigSpace, r: Reg, v: bv8): (cs': ConfigSpace)
    ensures Read(cs', r) == v
    ensures forall o :: o != r ==> Read(cs', o) == Read(cs, o)
  {
    match r
    case Enable => cs.(enable := v)
    case Direction => cs.(direction := v)
    case Output => cs.(output := v)
    case Input => cs.(input := v)
  }
}

=== FILE: resources.dfy ===
/** Abstract resource tokens for everything one instance acquires, the kernel
    release calls the driver makes, and a ledger that replays a sequence of
    calls and records every release that does not match a held token. */
module Resources {

  datatype Token =
    | DataMem       // kzalloc'd struct qm2_data
    | LabelMem      // kasprintf'd label
    | ChipReg       // gpiochip_add_data registration
    | PlatDevRef    // platform_device_alloc reference
    | PlatDataMem   // kzalloc'd i2c_gpio_platform_data
    | LookupMem     // kzalloc'd gpiod_lookup_table
    | DevIdMem      // kasprintf'd lookup dev_id
    | LookupReg     // gpiod_add_lookup_table registration
    | PlatDevLive   // platform_device_add registration

  datatype Call =
    | Kfree(t: Token)
    | PlatformDevicePut
    | PlatformDeviceDel
    | PlatformDeviceUnregister
    | GpiochipRemove
    | GpiodRemoveLookupTable

  /** The tokens a call gives up. `platform_device_unregister` is
      `platform_device_del` followed by `platform_device_put`. */
  function Releases(c: Call): seq<Token> {
    match c
    case Kfree(t) => [t]
    case PlatformDevicePut => [PlatDevRef]
    case PlatformDeviceDel => [PlatDevLive]
    case PlatformDeviceUnregister => [PlatDevLive, PlatDevRef]
    case GpiochipRemove => [ChipReg]
    case GpiodRemoveLookupTable => [LookupReg]
  }

  datatype Fault =
    | DoubleRelease(t: Token)          // released while not held
    | FreedWhileRegistered(t: Token)   // memory freed while still registered

  /** The tokens an instance holds, each at most once, and every fault the
      release calls raised so far, in order. */
  datatype Ledger = Ledger(held: set<Token>, faults: seq<Fault>)

  const Empty: Ledger := Ledger({}, [])

  /** The tokens a sequence mentions. */
  function Members(ts: seq<Token>): set<Token> {
    set t | t in ts
  }

  /** No token occurs twice. */
  predicate Distinct(ts: seq<Token>) {
    forall i, j :: 0 <= i < j < |ts| ==> ts[i] != ts[j]
  }

  function Acquire(l: Ledger, ts: seq<Token>): (r: Ledger)
    ensures forall t :: t in r.held <==> t in l.held || t in ts
    ensures r.faults == l.faults
  {
    Ledger(l.held + Members(ts), l.faults)
  }

  /** Gives up one token; a token that is not held is logged as a fault. */
  function Drop(l: Ledger, t: Token): (r: Ledger)
    ensures t !in r.held && r.held <= l.held
    ensures forall u :: u != t ==> (u in r.held <==> u in l.held)
    ensures l.faults <= r.faults
    ensures r.faults == l.faults <==> t in l.held
  {
    if t in l.held then Ledger(l.held - {t}, l.faults)
    else Ledger(l.held, l.faults + [DoubleRelease(t)])
  }

  function DropAll(l: Ledger, ts: seq<Token>): (r: Ledger)
    ensures l.faults <= r.faults
    decreases |ts|
  {
    if |ts| == 0 then l else DropAll(Drop(l, ts[0]), ts[1..])
  }

  /** One release call. Freeing the lookup table while it is still on the
      lookup list is logged before the memory is given up. */
  function Perform(l: Ledger, c: Call): (r: Ledger)
    ensures l.faults <= r.faults
  {
    var l1 :=
      if c == Kfree(LookupMem) && LookupReg in l.held
      then Ledger(l.held, l.faults + [FreedWhileRegistered(LookupMem)])
      else l;
    DropAll(l1, Releases(c))
  }

  function PerformAll(l: Ledger, cs: seq<Call>): (r: Ledger)
    ensures l.faults <= r.faults
    decreases |cs|
  {
    if |cs| == 0 then l else PerformAll(Perform(l, cs[0]), cs[1..])
  }

  /** Every token the calls give up, in order. */
  function Released(cs: seq<Call>): seq<Token> {
    if |cs| == 0 then [] else Releases(cs[0]) + Released(cs[1..])
  }

  /** A release sequence that raises no fault gives up only tokens that are
      held, never the same token twice, and what is left is exactly what was
      held minus what it gave up. */
  lemma {:induction false} DropAllClean(l: Ledger, ts: seq<Token>)
    requires DropAll(l, ts).faults == l.faults
    ensures Members(ts) <= l.held && Distinct(ts)
    ensures DropAll(l, ts).held == l.held - Members(ts)
    decreases |ts|
  {
    if |ts| > 0 {
      var t, rest := ts[0], ts[1..];
      var l1 := Drop(l, t);
      assert DropAll(l, ts) == DropAll(l1, rest);
      assert l1.faults <= DropAll(l1, rest).faults;
      assert t in l.held by {
        assert |l1.faults| <= |l.faults|;
      }
      DropAllClean(l1, rest);
      assert Members(ts) == {t} + Members(rest) by {
        assert ts == [t] + rest;
      }
      forall i, j | 0 <= i < j < |ts|
        ensures ts[i] != ts[j]
      {
        assert ts[j] == rest[j - 1];
        if i > 0 {
          assert ts[i] == rest[i - 1];
        }
      }
    }
  }

  /** The same for a sequence of calls: a fault-free replay gives up only
      held tokens and leaves the rest held. */
  lemma {:induction false} PerformAllClean(l: Ledger, cs: seq<Call>)
    requires PerformAll(l, cs).faults == l.faults
    ensures Members(Released(cs)) <= l.held
    ensures PerformAll(l, cs).held == l.held - Members(Released(cs))
    decreases |cs|
  {
    if |cs| > 0 {
      var l1 := Perform(l, cs[0]);
      assert l1.faults <= PerformAll(l1, cs[1..]).faults;
      assert l1.faults == l.faults;
      var l0 :=
        if cs[0] == Kfree(LookupMem) && LookupReg in l.held
        then Ledger(l.held, l.faults + [FreedWhileRegistered(LookupMem)])
        else l;
      assert l0.faults <= l1.faults;
      assert l0 == l;
      DropAllClean(l, Releases(cs[0]));
      PerformAllClean(l1, cs[1..]);
      assert Members(Released(cs)) == Members(Releases(cs[0])) + Members(Released(cs[1..]));
    }
  }
}

=== FILE: scan.dfy ===
/** The scan loop of `qm2mod_init`: every ASM2824 bridge the PCI core yields
    is filtered, each accepted bridge is built, and each instance built is
    appended to the instance list. A failed build skips only that device. */
module Scan {
  import opened Wrappers
  import opened Adapter
  import opened Pci
  import opened Names
  import opened Resources
  import opened Build

  /** What the loop body did with one device. */
  datatype Outcome =
    | Filtered                                   // rejected by the filter
    | Appended(inst: Instance)                   // built and added to the list
    | Abandoned(failed: Step, residue: Ledger)   // a step failed; what its releases left

  /** One pass of the loop body. */
  function Visit(v: Variant, c: Candidate): (o: Outcome)
    ensures o.Filtered? <==> !Accept(c.dev)
    ensures o.Appended? <==> Accept(c.dev) && TryBuild(v, c).Built?
    ensures o.Appended? ==> o.inst == TryBuild(v, c).inst
    ensures o.Abandoned? ==>
              && o.failed == TryBuild(v, c).failed
              && o.residue == Residue(TryBuild(v, c))
  {
    if !Accept(c.dev) then Filtered
    else
      var r := TryBuild(v, c);
      match r
      case Built(inst, _) => Appended(inst)
      case Skipped(s, _, _) => Abandoned(s, Residue(r))
  }

  /** Reference definition: the outcome of every device, in enumeration order. */
  function Scanned(v: Variant, cs: seq<Candidate>): (os: seq<Outcome>)
    ensures |os| == |cs|
  {
    if |cs| == 0 then [] else Scanned(v, cs[..|cs| - 1]) + [Visit(v, cs[|cs| - 1])]
  }

  /** The instance list the outcomes add up to. */
  function Listed(os: seq<Outcome>): seq<Instance> {
    if |os| == 0 then []
    else
      var last := os[|os| - 1];
      Listed(os[..|os| - 1]) + (if last.Appended? then [last.inst] else [])
  }

  /** The positions of the appended devices, in increasing order. */
  function AppendedAt(os: seq<Outcome>): seq<nat> {
    if |os| == 0 then []
    else AppendedAt(os[..|os| - 1]) + (if os[|os| - 1].Appended? then [|os| - 1] else [])
  }

  /** `qm2mod_init`: walks the devices, appending each built instance to the
      list, and returns 0 whatever happened. */
  method Init(v: Variant, cands: seq<Candidate>) returns (list: seq<Instance>, outcomes: seq<Outcome>, ret: int)
    ensures ret == 0
    ensures outcomes == Scanned(v, cands)
    ensures list == Listed(outcomes)
  {
    list, outcomes := [], [];
    var i := 0;
    while i < |cands|
      invariant 0 <= i <= |cands|
      invariant outcomes == Scanned(v, cands[..i])
      invariant list == Listed(outcomes)
    {
      var o := Visit(v, cands[i]);
      ScannedSnoc(v, cands, i);
      ListedSnoc(outcomes, o);
      outcomes := outcomes + [o];
      if o.Appended? {
        list := list + [o.inst];
      }
      i := i + 1;
    }
    assert cands[..i] == cands;
    ret := 0;
  }

  lemma ScannedSnoc(v: Variant, cs: seq<Candidate>, i: nat)
    requires i < |cs|
    ensures Scanned(v, cs[..i + 1]) == Scanned(v, cs[..i]) + [Visit(v, cs[i])]
  {
    assert cs[..i + 1][..i] == cs[..i];
  }

  lemma ListedSnoc(os: seq<Outcome>, o: Outcome)
    ensures Listed(os + [o]) == Listed(os) + (if o.Appended? then [o.inst] else [])
  {
    assert (os + [o])[..|os|] == os;
  }

  lemma {:induction false} ScannedAppend(v: Variant, a: seq<Candidate>, b: seq<Candidate>)
    ensures Scanned(v, a + b) == Scanned(v, a) + Scanned(v, b)
    decreases |b|
  {
    if |b| == 0 {
      assert a + b == a;
    } else {
      var b' := b[..|b| - 1];
      assert (a + b)[..|a + b| - 1] == a + b';
      ScannedAppend(v, a, b');
    }
  }

  lemma {:induction false} ListedAppend(a: seq<Outcome>, b: seq<Outcome>)
    ensures Listed(a + b) == Listed(a) + Listed(b)
    decreases |b|
  {
    if |b| == 0 {
      assert a + b == a;
    } else {
      var b' := b[..|b| - 1];
      assert (a + b)[..|a + b| - 1] == a + b';
      ListedAppend(a, b');
    }
  }

  lemma ScannedAround(v: Variant, a: seq<Candidate>, c: Candidate, b: seq<Candidate>)
    ensures Scanned(v, a + [c] + b) == Scanned(v, a) + [Visit(v, c)] + Scanned(v, b)
  {
    ScannedAppend(v, a + [c], b);
    ScannedSnoc(v, a + [c], |a|);
    assert (a + [c])[..|a|] == a && (a + [c])[..|a| + 1] == a + [c];
  }

  /** An outcome that appends nothing drops out of the list. */
  lemma ListedSkips(p: seq<Outcome>, o: Outcome, q: seq<Outcome>)
    requires !o.Appended?
    ensures Listed(p + [o] + q) == Listed(p + q)
  {
    ListedSnoc(p, o);
    ListedAppend(p + [o], q);
    ListedAppend(p, q);
  }

  /** A device whose build fails, or that the filter rejects, contributes
      nothing: the scan goes on with the next device exactly as if it were
      absent. */
  lemma SkipOnlyThatDevice(v: Variant, a: seq<Candidate>, c: Candidate, b: seq<Candidate>)
    requires !Accept(c.dev) || TryBuild(v, c).Skipped?
    ensures Listed(Scanned(v, a + [c] + b)) == Listed(Scanned(v, a + b))
  {
    ScannedAround(v, a, c, b);
    ScannedAppend(v, a, b);
    ListedSkips(Scanned(v, a), Visit(v, c), Scanned(v, b));
  }

  /** The list is the appended outcomes, in the order their devices were
      met: a subsequence of the enumeration. */
  lemma {:induction false} ListedInOrder(os: seq<Outcome>)
    ensures |AppendedAt(os)| == |Listed(os)|
    ensures forall m :: 0 <= m < |AppendedAt(os)| ==>
              && AppendedAt(os)[m] < |os|
              && os[AppendedAt(os)[m]] == Appended(Listed(os)[m])
    ensures forall m, n :: 0 <= m < n < |AppendedAt(os)| ==> AppendedAt(os)[m] < AppendedAt(os)[n]
    ensures forall j :: 0 <= j < |os| && os[j].Appended? ==> j in AppendedAt(os)
  {
    if |os| > 0 {
      var os' := os[..|os| - 1];
      ListedInOrder(os');
      forall m | 0 <= m < |AppendedAt(os')|
        ensures os[AppendedAt(os')[m]] == os'[AppendedAt(os')[m]]
      {
      }
      forall j | 0 <= j < |os| - 1 && os[j].Appended?
        ensures j in AppendedAt(os)
      {
        assert os'[j] == os[j];
      }
    }
  }

  /** Every device's outcome is its own visit. */
  lemma {:induction false} ScannedAt(v: Variant, cs: seq<Candidate>, j: nat)
    requires j < |cs|
    ensures Scanned(v, cs)[j] == Visit(v, cs[j])
    decreases |cs|
  {
    if j < |cs| - 1 {
      ScannedAt(v, cs[..|cs| - 1], j);
    }
  }

  /** Listed instances come from strictly increasing enumeration positions,
      each holding the device it was built for. */
  lemma ListIsSubsequence(v: Variant, cands: seq<Candidate>)
    ensures var os := Scanned(v, cands);
      && |AppendedAt(os)| == |Listed(os)|
      && (forall m :: 0 <= m < |AppendedAt(os)| ==>
            && AppendedAt(os)[m] < |cands|
            && Listed(os)[m].dev == cands[AppendedAt(os)[m]].dev)
      && (forall m, n :: 0 <= m < n < |AppendedAt(os)| ==> AppendedAt(os)[m] < AppendedAt(os)[n])
  {
    var os := Scanned(v, cands);
    ListedInOrder(os);
    forall m | 0 <= m < |AppendedAt(os)|
      ensures Listed(os)[m].dev == cands[AppendedAt(os)[m]].dev
    {
      ScannedAt(v, cands, AppendedAt(os)[m]);
    }
  }

  /** Every listed instance comes from an accepted device and is well
      named. */
  lemma ListedWellNamed(v: Variant, cands: seq<Candidate>, m: nat)
    requires m < |Listed(Scanned(v, cands))|
    ensures Accept(Listed(Scanned(v, cands))[m].dev)
    ensures WellNamed(Listed(Scanned(v, cands))[m])
  {
    var os := Scanned(v, cands);
    ListedInOrder(os);
    var j := AppendedAt(os)[m];
    ScannedAt(v, cands, j);
    BuiltWellNamed(v, cands[j]);
  }

  lemma AcceptedLabelSlot(inst: Instance)
    requires Accept(inst.dev) && WellNamed(inst)
    ensures |inst.labelText| >= 20 && inst.labelText[18..20] == "00"
  {
    AcceptCharacterised(inst.dev);
    SlotZeroLabel(inst.dev.busNumber, inst.nr);
  }

  /** Only slot 0 is accepted, so every listed label reads "00" in its slot
      field. */
  lemma ListedSlotZero(v: Variant, cands: seq<Candidate>, m: nat)
    requires m < |Listed(Scanned(v, cands))|
    ensures var text := Listed(Scanned(v, cands))[m].labelText;
      |text| >= 20 && text[18..20] == "00"
  {
    ListedWellNamed(v, cands, m);
    AcceptedLabelSlot(Listed(Scanned(v, cands))[m]);
  }

  /** When all 33 adapter numbers are registered, the probe's -ENODEV is
      never checked: the code as written builds the device under adapter
      number -19, in its platform device id and its lookup `dev_id`. */
  lemma UncheckedProbe(c: Candidate)
    requires forall n :: FirstNumber <= n <= LastNumber ==> n in c.adapters
    requires c.failing == {}
    ensures TryBuild(AsWritten, c).Built?
    ensures TryBuild(AsWritten, c).inst.nr == -ENODEV
    ensures TryBuild(AsWritten, c).inst.platDev == PlatformDevice(PlatformName, -19)
    ensures TryBuild(AsWritten, c).inst.lookup.devId == DevId(-19)
  {
    var nr := FirstFree(c.adapters, FirstNumber);
    assert FirstFailureFrom(AsWritten, nr, c.failing, 0) == None;
  }

  /** The repaired driver, in the same situation, gives up right after
      allocating the instance data and frees it. */
  lemma CheckedProbe(c: Candidate)
    requires forall n :: FirstNumber <= n <= LastNumber ==> n in c.adapters
    requires AllocData !in c.failing
    ensures TryBuild(Repaired, c) == Skipped(ProbeAdapter, [DataMem], [Kfree(DataMem)])
  {
    var nr := FirstFree(c.adapters, FirstNumber);
    assert FirstFailureFrom(Repaired, nr, c.failing, 0) == Some(1);
    assert HeldBefore(1) == [DataMem];
  }

  /** The repaired driver only ever builds under a number in [32, 64]. */
  lemma RepairedNumberInRange(c: Candidate)
    requires TryBuild(Repaired, c).Built?
    ensures FirstNumber <= TryBuild(Repaired, c).inst.nr <= LastNumber
    ensures TryBuild(Repaired, c).inst.nr !in c.adapters
  {
    var nr := FirstFree(c.adapters, FirstNumber);
    assert !Fails(Repaired, Steps[1], nr, c.failing);
  }
}

=== FILE: teardown.dfy ===
/** `qm2mod_exit`: drains the instance list oldest first, unlinking each
    entry and then releasing what it holds in a fixed order. As written the
    order skips the lookup table's registration and its `dev_id`, and frees
    the table while it is still registered. */
module Teardown {
  import opened Resources
  import opened Build
  import opened Cleanup

  /** The release calls made for one entry. As written: unregister the
      platform device, free the lookup table, the platform data, remove the
      chip, free the label and the entry. Repaired: delete the platform
      device, remove the lookup table, then give back the rest, the last
      acquired first. Both end by freeing the entry itself. */
  function TeardownCalls(v: Variant): (cs: seq<Call>)
    ensures |cs| >= 1 && cs[|cs| - 1] == Kfree(DataMem)
  {
    match v
    case AsWritten =>
      [PlatformDeviceUnregister, Kfree(LookupMem), Kfree(PlatDataMem), GpiochipRemove,
       Kfree(LabelMem), Kfree(DataMem)]
    case Repaired =>
      [PlatformDeviceDel, GpiodRemoveLookupTable, Kfree(DevIdMem), Kfree(LookupMem),
       Kfree(PlatDataMem), PlatformDevicePut, GpiochipRemove, Kfree(LabelMem), Kfree(DataMem)]
  }

  /** Both orders free the lookup table; only the repaired one removes it
      from the lookup list and frees its `dev_id`. */
  lemma TeardownUnregistersOnlyRepaired(v: Variant)
    ensures Kfree(LookupMem) in TeardownCalls(v)
    ensures GpiodRemoveLookupTable in TeardownCalls(v) <==> v == Repaired
    ensures Kfree(DevIdMem) in TeardownCalls(v) <==> v == Repaired
  {
  }

  /** The repaired order undoes every token exactly in reverse. */
  lemma RepairedTeardownReverses()
    ensures TeardownCalls(Repaired) == UndoAll(AllTokens)
  {
  }

  /** What the exit routine does, one step at a time. */
  datatype Event =
    | Unlink(inst: Instance)               // list_del
    | Release(inst: Instance, call: Call)  // one release call for that entry

  /** One release event per call, in order. */
  function ReleaseEvents(inst: Instance, cs: seq<Call>): (es: seq<Event>)
    ensures |es| == |cs|
    ensures forall m :: 0 <= m < |es| ==> es[m] == Release(inst, cs[m])
  {
    if |cs| == 0 then []
    else ReleaseEvents(inst, cs[..|cs| - 1]) + [Release(inst, cs[|cs| - 1])]
  }

  /** The events for one entry: unlinked first, then released. */
  function EntryEvents(cs: seq<Call>, inst: Instance): seq<Event> {
    [Unlink(inst)] + ReleaseEvents(inst, cs)
  }

  /** Reference definition: the events of draining `list`, oldest entry
      first, with the release calls `cs` for each entry. */
  function Drain(cs: seq<Call>, list: seq<Instance>): seq<Event> {
    if |list| == 0 then [] else Drain(cs, list[..|list| - 1]) + EntryEvents(cs, list[|list| - 1])
  }

  /** The `list_for_each_entry_safe` loop: takes entries off the front of
      the list until it is empty, unlinking each and then making the calls
      `cs` for it. */
  method DrainList(cs: seq<Call>, list: seq<Instance>) returns (events: seq<Event>, remaining: seq<Instance>)
    ensures remaining == []
    ensures events == Drain(cs, list)
  {
    events, remaining := [], list;
    while |remaining| > 0
      invariant |remaining| <= |list|
      invariant remaining == list[|list| - |remaining|..]
      invariant events == Drain(cs, list[..|list| - |remaining|])
      decreases |remaining|
    {
      var done := |list| - |remaining|;
      var entry := remaining[0];
      remaining := remaining[1..];
      assert list[..done + 1][..done] == list[..done];
      events := events + EntryEvents(cs, entry);
    }
    assert list[..|list|] == list;
  }

  /** `qm2mod_exit`: drains the list with the fixed per-entry release calls. */
  method Exit(v: Variant, list: seq<Instance>) returns (events: seq<Event>, remaining: seq<Instance>)
    ensures remaining == []
    ensures events == Drain(TeardownCalls(v), list)
  {
    events, remaining := DrainList(TeardownCalls(v), list);
  }

  /** The entries unlinked by a run of events, in order. */
  function Unlinked(es: seq<Event>): seq<Instance> {
    if |es| == 0 then []
    else Unlinked(es[..|es| - 1]) + (if es[|es| - 1].Unlink? then [es[|es| - 1].inst] else [])
  }

  lemma {:induction false} UnlinkedAppend(a: seq<Event>, b: seq<Event>)
    ensures Unlinked(a + b) == Unlinked(a) + Unlinked(b)
    decreases |b|
  {
    if |b| == 0 {
      assert a + b == a;
    } else {
      var b' := b[..|b| - 1];
      assert (a + b)[..|a + b| - 1] == a + b';
      UnlinkedAppend(a, b');
    }
  }

  lemma {:induction false} NoUnlinks(inst: Instance, cs: seq<Call>)
    ensures Unlinked(ReleaseEvents(inst, cs)) == []
  {
    if |cs| > 0 {
      var es := ReleaseEvents(inst, cs);
      assert es[..|es| - 1] == ReleaseEvents(inst, cs[..|cs| - 1]);
      NoUnlinks(inst, cs[..|cs| - 1]);
    }
  }

  /** One entry's events unlink exactly that entry. */
  lemma EntryUnlinksItself(cs: seq<Call>, inst: Instance)
    ensures Unlinked(EntryEvents(cs, inst)) == [inst]
  {
    var rels := ReleaseEvents(inst, cs);
    UnlinkedAppend([Unlink(inst)], rels);
    assert [Unlink(inst)][..0] == [];
    NoUnlinks(inst, cs);
  }

  lemma UnlinkedSnoc(d: seq<Event>, e: seq<Event>, front: seq<Instance>, last: Instance)
    requires Unlinked(d) == front && Unlinked(e) == [last]
    ensures Unlinked(d + e) == front + [last]
  {
    UnlinkedAppend(d, e);
  }

  /** Entries are visited in insertion order, each exactly once. */
  lemma {:induction false} DrainVisitsInOrder(cs: seq<Call>, list: seq<Instance>)
    ensures Unlinked(Drain(cs, list)) == list
    decreases |list|
  {
    if |list| > 0 {
      var front, last := list[..|list| - 1], list[|list| - 1];
      DrainVisitsInOrder(cs, front);
      EntryUnlinksItself(cs, last);
      UnlinkedSnoc(Drain(cs, front), EntryEvents(cs, last), front, last);
      assert list == front + [last];
    }
  }

  /** Every release call for an entry comes after that entry was unlinked. */
  lemma {:induction false} UnlinkBeforeRelease(cs: seq<Call>, list: seq<Instance>, p: nat)
    requires p < |Drain(cs, list)| && Drain(cs, list)[p].Release?
    ensures exists q :: 0 <= q < p && Drain(cs, list)[q] == Unlink(Drain(cs, list)[p].inst)
    decreases |list|
  {
    var front := list[..|list| - 1];
    var d := Drain(cs, front);
    var es := EntryEvents(cs, list[|list| - 1]);
    assert Drain(cs, list) == d + es;
    if p < |d| {
      UnlinkBeforeRelease(cs, front, p);
      var q :| 0 <= q < p && d[q] == Unlink(d[p].inst);
      assert Drain(cs, list)[q] == d[q];
    } else {
      assert Drain(cs, list)[|d|] == Unlink(list[|list| - 1]);
    }
  }

  /** A built instance holds every token. */
  lemma BuiltHoldsAll()
    ensures HeldBefore(|Steps|) == AllTokens
  {
    HeldLate(10);
  }

  const FullSet: set<Token> := {DataMem, LabelMem, ChipReg, PlatDevRef, PlatDataMem,
    LookupMem, DevIdMem, LookupReg, PlatDevLive}

  lemma AllTokensMembers()
    ensures Acquire(Empty, AllTokens) == Ledger(FullSet, [])
  {
    forall t: Token
      ensures t in AllTokens <==> t in FullSet
    {
      match t
      case DataMem => assert AllTokens[0] == t;
      case LabelMem => assert AllTokens[1] == t;
      case ChipReg => assert AllTokens[2] == t;
      case PlatDevRef => assert AllTokens[3] == t;
      case PlatDataMem => assert AllTokens[4] == t;
      case LookupMem => assert AllTokens[5] == t;
      case DevIdMem => assert AllTokens[6] == t;
      case LookupReg => assert AllTokens[7] == t;
      case PlatDevLive => assert AllTokens[8] == t;
    }
  }

  /** The ledgers after each as-written teardown call. */
  function TeardownAfter(i: nat): Ledger
  {
    var full := FullSet;
    var freed := [FreedWhileRegistered(LookupMem)];
    match i
    case 0 => Ledger(full, [])
    case 1 => Ledger(full - {PlatDevLive} - {PlatDevRef}, [])
    case 2 => Ledger(full - {PlatDevLive} - {PlatDevRef} - {LookupMem}, freed)
    case 3 => Ledger(full - {PlatDevLive} - {PlatDevRef} - {LookupMem} - {PlatDataMem}, freed)
    case 4 => Ledger(full - {PlatDevLive} - {PlatDevRef} - {LookupMem} - {PlatDataMem}
                     - {ChipReg}, freed)
    case 5 => Ledger(full - {PlatDevLive} - {PlatDevRef} - {LookupMem} - {PlatDataMem}
                     - {ChipReg} - {LabelMem}, freed)
    case _ => Ledger(full - {PlatDevLive} - {PlatDevRef} - {LookupMem} - {PlatDataMem}
                     - {ChipReg} - {LabelMem} - {DataMem}, freed)
  }

  /** `platform_device_unregister` on a live, referenced platform device
      gives up both tokens. */
  lemma UnregisterHeld(l: Ledger)
    requires PlatDevLive in l.held && PlatDevRef in l.held
    ensures Perform(l, PlatformDeviceUnregister) == Ledger(l.held - {PlatDevLive} - {PlatDevRef}, l.faults)
  {
    var ts := [PlatDevLive, PlatDevRef];
    assert ts[1..] == [PlatDevRef] && [PlatDevRef][1..] == [];
  }

  lemma TeardownStep(i: nat)
    requires i < |TeardownCalls(AsWritten)|
    ensures Perform(TeardownAfter(i), TeardownCalls(AsWritten)[i]) == TeardownAfter(i + 1)
  {
    var l := TeardownAfter(i);
    match i
    case 0 => UnregisterHeld(l);
    case 1 => FreeRegisteredLookup(l);
    case 2 => PerformSingle(l, Kfree(PlatDataMem));
    case 3 => PerformSingle(l, GpiochipRemove);
    case 4 => PerformSingle(l, Kfree(LabelMem));
    case 5 => PerformSingle(l, Kfree(DataMem));
  }

  lemma TeardownEnds()
    ensures TeardownAfter(6) == Ledger({DevIdMem, LookupReg}, [FreedWhileRegistered(LookupMem)])
  {
  }

  /** The ledger of one entry at the end of `qm2mod_exit` as written: the
      lookup table stays registered, its `dev_id` is never freed, and the
      table is freed while registered. */
  lemma AsWrittenTeardownResidue()
    ensures PerformAll(Acquire(Empty, AllTokens), TeardownCalls(AsWritten))
         == Ledger({DevIdMem, LookupReg}, [FreedWhileRegistered(LookupMem)])
  {
    var cs := TeardownCalls(AsWritten);
    forall i | 0 <= i < |cs|
      ensures Perform(TeardownAfter(i), cs[i]) == TeardownAfter(i + 1)
    {
      TeardownStep(i);
    }
    Replay(TeardownAfter, cs, 0);
    assert cs[0..] == cs;
    AllTokensMembers();
    TeardownEnds();
  }

  /** Repaired, nothing is left and nothing is logged. */
  lemma RepairedTeardownResidue()
    ensures PerformAll(Acquire(Empty, AllTokens), TeardownCalls(Repaired)) == Empty
  {
    RepairedTeardownReverses();
    AllTokensDistinct();
    AllTokensOrdered();
    UndoFromRun(Acquire(Empty, AllTokens), AllTokens, 0);
    assert AllTokens[..0] == [];
  }

  /** The whole life of one device that was built: what it holds once the
      exit routine has released it. */
  lemma LifetimeResidue(v: Variant, c: Candidate)
    requires TryBuild(v, c).Built?
    ensures v == AsWritten ==>
              PerformAll(Residue(TryBuild(v, c)), TeardownCalls(v))
              == Ledger({DevIdMem, LookupReg}, [FreedWhileRegistered(LookupMem)])
    ensures v == Repaired ==> PerformAll(Residue(TryBuild(v, c)), TeardownCalls(v)) == Empty
  {
    BuiltHoldsAll();
    if v == AsWritten {
      AsWrittenTeardownResidue();
    } else {
      RepairedTeardownResidue();
    }
  }
}

=== FILE: wrappers.dfy ===
/** Small shared vocabulary: an optional value and the fixed-width unsigned
    integer types the driver's C fields are declared with. */
module Wrappers {

  /** A value that may be absent: `None` plays the part of a NULL pointer or
      of a parse that did not succeed. */
  datatype Option<+T> = None | Some(value: T)

  /** C `u8` / `unsigned char`. */
  type U8 = n: int | 0 <= n < 0x100

  /** C `u16` / `unsigned short`. */
  type U16 = n: int | 0 <= n < 0x1_0000

  /** C `u32` / `unsigned int`. */
  type U32 = n: int | 0 <= n < 0x1_0000_0000
}
